=== FILE: README.md ===
# langgraph-chainlit-agent, modelled in Dafny

This project models the sequential core of a chat front end for a tool-using
LangGraph agent. The chat UI, HTTP, audio and async plumbing are stripped
away. What is left is a set of pure functions over sequences, strings and
maps:

- **`ChainlitAgent`** (`src/services/chainlit_agent.py`)
  - `on_message` builds the user message: the typed text, one line per
    attached file with `/workspace` rewritten to `.`, and an input-time
    suffix. It appends that message to the history.
  - It then folds over the agent's kind-tagged event stream:
    - `on_chat_model_stream` tokens are appended to the reply.
    - `on_tool_start` inserts a step into the `steps` dict by run id, or
      overwrites one.
    - `on_tool_end` looks a step up and sets its output. An unknown run id
      raises `KeyError`.
    - Every other kind is ignored.
  - Optionally it attaches a text-to-speech file, and returns the reply text
    as an `AIMessage`.
  - `on_settings_update` stores the `Speak` switch and builds a VOICEVOX
    client from the selected speaker id.
- **`MainApp`** (`main.py`): the stand-alone app's `on_message`.
  - It folds over `astream_log` output, a list of outputs that each hold
    path-addressed operations.
  - `/streamed_output/-` operations are classified by graph node into tool
    steps and function-call steps.
  - Operations under `/logs/…/streamed_output_str/-` contribute text chunks.
  - The joined chunks become the agent message.
- **`TestAgent`** (`src/test_agent.py`): the command-line test driver.
  - Mode validation and its default.
  - The read–answer loop that stops at `exit`.
  - Stream-mode and invoke-mode answer text.
  - The alternating Human/AI history.
- **`Voicevox`** (`src/services/voicevox.py`):
  - The speaker catalogue built from the `/speakers` response.
  - Its two flattened views, the per-speaker list and the selector dict.
  - The speaker-id precedence of `_get_speaker_id`.

Supporting modules:

- `Wrappers` holds `Option` and `Result`.
- `Strings` holds prefix/suffix tests, `"".join`, `str.replace` as a
  left-to-right scan, and `str(int)` with its parser.
- `OrderedMaps` models a Python dict as an association list. Overwriting a
  key keeps its position, and a new key is appended. So dict comprehensions
  keep Python's key order and its "last write wins" rule.
- `History` holds the LangChain messages and the alternation invariant.
- `Attachments` builds the user-message text.
- `Events` defines the event records and the token text of a stream.

Python exceptions are modelled as `Result` failures:

- the `KeyError` of an unknown run id;
- the `IndexError`, `KeyError`, `AttributeError` and `TypeError` of
  operations of the wrong shape;
- `ValueError` and `KeyError` from `_get_speaker_id`;
- the unbound `res` in `main.py` when the stream is empty.

The model follows the code as written:

- A second `on_tool_start` with the same run id overwrites the step; it
  does not fail.
- Tool calls that never end are not reported.
- When the turn fails, the user message has already been appended to the
  history, and it stays there.
- `main.py` only tests the `/logs/` prefix and the `/streamed_output_str/-`
  suffix, so the path `/logs/streamed_output_str/-`, where the two share a
  `/`, counts as a chunk path.

## Model

| member | source | states |
|---|---|---|
| `Strings.ReplaceAllRemovesPattern` | src/services/chainlit_agent.py:77 | replacing every occurrence of a pattern by a non-empty text that shares no character with the pattern leaves no occurrence of the pattern |
| `Strings.ReplaceAllAtFirstMatch` | src/services/chainlit_agent.py:77 | `str.replace` copies the text before the first occurrence, puts the replacement in place of that occurrence and rewrites the rest the same way |
| `Strings.IntToDecimalRoundTrip` | src/services/voicevox.py:43 | the decimal text `str(id)` of a style id parses back to the same id |
| `Strings.IntToDecimalInjective` | src/services/voicevox.py:43 | distinct style ids give distinct decimal texts, so no two styles share a selector value |
| `OrderedMaps.FromPairsLookup` | src/services/voicevox.py:25-28 | a dict built by a comprehension maps each key to the value of the last pair with that key |
| `OrderedMaps.FromPairsKeys` | src/services/voicevox.py:25-28 | the keys of a dict built by a comprehension are the pair keys in order of first appearance, without duplicates |
| `Attachments.AgentPath` | src/services/chainlit_agent.py:77 | the path shown to the agent contains no `/workspace` |
| `Attachments.AgentPathOutsideWorkspace` | src/services/chainlit_agent.py:77 | a path that never mentions `/workspace` is shown unchanged |
| `Attachments.AgentPathInWorkspace` | src/services/chainlit_agent.py:77 | a path starting with `/workspace` is shown starting with `.`, followed by the rest of the path rewritten |
| `Attachments.AgentPathRewritesWorkspace` | src/services/chainlit_agent.py:77 | the first `/workspace` anywhere in a path becomes `.`, the text before it is kept, and the text after it is rewritten in turn |
| `Attachments.UploadedFileScenario` | src/services/chainlit_agent.py:77 | `/workspace/files/a.png` is shown as `./files/a.png` |
| `Attachments.Line` | src/services/chainlit_agent.py:77 | an attachment line starts with `- name (path: `, ends with `)` and a newline, and between them carries exactly the path as the agent sees it |
| `Attachments.AttachmentText` | src/services/chainlit_agent.py:74-79 | the attachment text is non-empty exactly when at least one file is attached, which is what the `if attachment_file_text` test depends on |
| `Attachments.AttachmentTextLine` | src/services/chainlit_agent.py:76-77 | the line of element `i` sits after the lines of all earlier elements and before the lines of all later ones |
| `Attachments.OneLinePerElement` | src/services/chainlit_agent.py:76-77 | when no name or path contains a newline, the text has exactly one line per attached file |
| `Attachments.AgentUserContent` | src/services/chainlit_agent.py:71-85 | the user message starts with the typed text and ends with `(Input time: T)`; the `Attached files` block is present exactly when a file is attached |
| `Attachments.AppUserContent` | main.py:24-32 | the stand-alone app's user message starts with the typed text; it gets the `Attachment` block only when a file is attached, and no time suffix |
| `Events.StreamTextAppend` | src/services/chainlit_agent.py:92-94 | the token text of two streams played one after the other is the concatenation of their token texts |
| `Events.NonTokenIgnored` | src/services/chainlit_agent.py:92-102 | inserting a tool event, or an event of an unknown kind, anywhere in a stream leaves the answer text unchanged |
| `History.AppendTurn` | src/test_agent.py:36-67 | appending a human message and then an agent message keeps an alternating history alternating |
| `ChainlitAgent.Apply` | src/services/chainlit_agent.py:92-102 | one event fails exactly when it is a tool end whose run id is not in `steps`; a token extends the reply; a start inserts or overwrites its step; an end sets only that step's output; every other run id and kind leaves `steps` alone |
| `ChainlitAgent.Fold` | src/services/chainlit_agent.py:92-102 | a completed event loop has streamed exactly the token text of the stream, and its step keys are the run ids of the start events |
| `ChainlitAgent.FoldStep` | src/services/chainlit_agent.py:92-102 | after a completed loop, one more event completes the loop with that event applied, or raises with its run id and leaves the progress as it was |
| `ChainlitAgent.FoldFinishedIff` | src/services/chainlit_agent.py:99-100 | the event loop completes exactly when every end event names a run id started earlier in the stream; a start that never ends does not matter |
| `ChainlitAgent.FoldRaisedShowsPrefix` | src/services/chainlit_agent.py:92-102 | when the loop raises, it stops at the first end event with an unknown run id: every earlier end matched; the reply shows exactly the tokens before it, and the step keys are the run ids started before it |
| `ChainlitAgent.RestartOverwrites` | src/services/chainlit_agent.py:95-98 | two starts with the same run id do not fail, and the second start's step replaces the first |
| `ChainlitAgent.OnMessage` | src/services/chainlit_agent.py:66-119 | the history gains exactly the user message; a completed turn returns and shows the token text; its steps are keyed by the started run ids; audio is attached only when `speak` is on and the turn completed; whether the turn completes or raises, the reply's text and steps dictionary are exactly those the event loop built |
| `ChainlitAgent.OnMessageRaisedShowsPrefix` | src/services/chainlit_agent.py:88-102 | when a turn raises, the error names the run id of an end event that no earlier event started; every earlier end matched, and the reply shows exactly the tokens streamed before it and steps keyed by the run ids started before it |
| `ChainlitAgent.OnMessageFailsIff` | src/services/chainlit_agent.py:88-102 | a turn raises exactly when some end event has no earlier start with its run id |
| `ChainlitAgent.SpeakLeavesAnswerUnchanged` | src/services/chainlit_agent.py:106-119 | the returned message and the reply text do not depend on `speak` |
| `ChainlitAgent.TokensAndToolScenario` | src/services/chainlit_agent.py:88-119 | the tokens `Hel` and `lo` plus a completed `search` call answer `Hello`, with one step carrying `3 results` |
| `ChainlitAgent.UnknownEndScenario` | src/services/chainlit_agent.py:88-100 | an end event for an unknown run id fails the turn with that id after the user message was added |
| `ChainlitAgent.OnSettingsUpdate` | src/services/chainlit_agent.py:56-64 | `speak` always takes the new switch value; a non-empty speaker id becomes the voice; an empty one raises `ValueError` and keeps the previous voice |
| `MainApp.ClassifyMessage` | main.py:52-63 | an `action` node shows a step named after the message, with the fenced content; another node with a function call shows a step named after the node, whose output is exactly `function call: name`, a blank line, then the fenced arguments; empty kwargs show nothing; other non-empty kwargs raise `KeyError` |
| `MainApp.Classify` | main.py:45-75 | only the exact path `/streamed_output/-` can show a step, and it classifies the last message of the first node of the value, raising on a text value, an empty mapping or an empty `messages` list; an operation adds a chunk exactly when its path is a chunk path and its value is text, and the chunk is that text; every other path is skipped |
| `MainApp.StreamedPathIsNotChunkPath` | main.py:46-72 | the step path is not a chunk path, so no operation is both |
| `MainApp.OverlappingChunkPath` | main.py:70-72 | `/logs/streamed_output_str/-` counts as a chunk path, because the prefix and the suffix share their `/` |
| `MainApp.ChunkTextAppend` | main.py:70-78 | the chunk text of two operation lists played in turn is the concatenation of their chunk texts |
| `MainApp.StepsOfAppend` | main.py:45-68 | the steps shown by two operation lists played in turn are the steps of the first followed by those of the second |
| `MainApp.RunOps` | main.py:45-75 | when the operations of one output all run, the joined chunks are extended by exactly their chunk text, and the steps shown by exactly their steps, in order |
| `MainApp.RunOpsFailure` | main.py:45-75 | the inner loop completes exactly when no operation raises; otherwise it stops at the first operation that raises, having collected the chunks and shown the steps of the operations before it |
| `MainApp.RunOutputs` | main.py:44-78 | when no operation raises, the joined chunks are the chunk text of all operations in order, the steps shown are their steps in order, and `res` is bound exactly when the stream yielded at least one output |
| `MainApp.RunOutputsFailure` | main.py:44-78 | the outer loop fails exactly when some operation of some output raises; it stops at the first, and the chunks collected and steps shown are those of all operations before it, across outputs |
| `MainApp.OnMessage` | main.py:24-81 | a completed turn adds the user message and then an agent message with the joined chunk text, which is exactly the text streamed to the user, and shows the steps of all operations in order; a failed turn adds only the user message; `res` is unbound exactly when the stream yields nothing |
| `MainApp.OnMessageOpFailure` | main.py:44-81 | a turn fails on an operation exactly when some operation raises, and the user has then been shown the chunks and the steps of the operations before the first one that raised |
| `MainApp.OnMessageKeepsAlternation` | main.py:35-81 | a completed turn keeps an alternating history alternating |
| `MainApp.FunctionCallThenChunkScenario` | main.py:44-81 | a function-call announcement followed by one chunk shows one `function call: lookup` step and answers with the chunk |
| `MainApp.EmptyStreamScenario` | main.py:35-81 | an empty stream fails with `res` unbound, after the user message was added |
| `TestAgent.ModeArgument` | src/test_agent.py:70-75 | a mode argument other than `stream` or `invoke` is rejected with exit status 1; otherwise the mode is the argument, or none when there is no argument |
| `TestAgent.AcceptedModesAreHandled` | src/test_agent.py:22-23 | every accepted mode, after the default is applied, is `stream` or `invoke`; with no argument it is `stream` |
| `TestAgent.ToolOutputsIgnored` | src/test_agent.py:55-64 | in invoke mode the answer does not depend on the tool outputs |
| `TestAgent.TurnsBeforeExit` | src/test_agent.py:30-34 | the loop handles exactly the queries before the first `exit` |
| `TestAgent.ExitIndex` | src/test_agent.py:30-34 | a loop that has seen no `exit` and stops at an `exit` or at the end of input has handled exactly the turns before the first `exit` |
| `TestAgent.TranscriptShape` | src/test_agent.py:36-67 | turn `i` contributes the human message at position `2i` and its answer at `2i+1` |
| `TestAgent.StreamOutputText` | src/test_agent.py:38-54 | stream mode's `output_text` is the token text of the event stream, with tool events only printed |
| `TestAgent.Answer` | src/test_agent.py:38-64 | one turn's `output_text` is the token text of the event stream in stream mode and the `content` of the `ainvoke` result in invoke mode |
| `TestAgent.RunSession` | src/test_agent.py:22-67 | the session history is the transcript of the turns before the first `exit`; it alternates and has two messages per handled turn |
| `TestAgent.TranscriptAlternates` | src/test_agent.py:36-67 | every transcript alternates human and agent messages, starting with a human one |
| `TestAgent.SessionShape` | src/test_agent.py:30-67 | the `i`-th handled query and its output text sit at positions `2i` and `2i+1` of the session history |
| `Voicevox.LoadData` | src/services/voicevox.py:22-28 | the catalogue has distinct speaker names in order of first appearance, and distinct style names within each speaker |
| `Voicevox.LoadDataLastWins` | src/services/voicevox.py:24-28 | the last speaker item with a given name decides that name's styles |
| `Voicevox.StyleTableLastWins` | src/services/voicevox.py:26 | within a speaker, the last style with a given name decides its id |
| `Voicevox.LoadDataAbsent` | src/services/voicevox.py:24-28 | a name no speaker item carries is not in the catalogue |
| `Voicevox.SpeakerStyleList` | src/services/voicevox.py:30-38 | there is one dict per speaker |
| `Voicevox.SpeakerStyleListEntry` | src/services/voicevox.py:30-38 | dict `i` holds exactly speaker `i`'s styles in order, each keyed `speaker-style` with its integer id |
| `Voicevox.DictPairsFromCatalogue` | src/services/voicevox.py:40-46 | the flattened selector pairs are exactly the `speaker - style` / `str(id)` pairs of the catalogue |
| `Voicevox.SpeakerStyleDict` | src/services/voicevox.py:40-46 | the selector dict has distinct keys |
| `Voicevox.SpeakerStyleDictSound` | src/services/voicevox.py:40-46 | every selector entry is `speaker - style` for some style in the catalogue, with that style's id as decimal text |
| `Voicevox.SpeakerStyleDictComplete` | src/services/voicevox.py:40-46 | every style of every speaker has a selector entry |
| `Voicevox.GetSpeakerId` | src/services/voicevox.py:66-78 | a truthy `speaker_id` is returned as given; otherwise both names must be truthy, or `ValueError` is raised; an unknown speaker name raises `KeyError` with that name; in a catalogue with distinct keys, an unknown style of a known speaker raises `KeyError` with the style name, and a stored pair yields its id; any by-name result is an id stored under those names |
| `Voicevox.SpeakerIdTakesPrecedence` | src/services/voicevox.py:70-71 | with a truthy `speaker_id`, the name arguments make no difference |
| `Voicevox.GetSpeakerIdByName` | src/services/voicevox.py:72-74 | looking up truthy names against the loaded catalogue gives the id of the last matching style of the last matching speaker item |

## Left out

- Chainlit widgets are not modelled: `cl.Message`, `cl.Step`, `cl.ChatSettings`, `cl.Audio`, `cl.user_session` and the `send`/`update` calls. `stream_token` is modelled as appending to the reply text, and the steps as a map from run id to step.
- Async iteration (`astream_events`, `astream_log`) is not modelled. Each stream is a finite list given as a parameter, and cancellation is not modelled.
- `SingleAgent` and `create_agent` are not part of this model. The events, operations and `ainvoke` results they produce are inputs.
- The `datetime`/`pytz` clock read is not modelled. The formatted time is the `inputTime` parameter.
- The VOICEVOX HTTP calls, the OpenAI manuscript rewrite, base64 encoding and writing the `.wav` file are not modelled, because they are network, foreign-library and file I/O. The `/speakers` response is a parameter, and the path of the audio file is the `audioPath` parameter.
- `print` and `input` in the command-line test driver are not modelled. Console input is the list of turns, and end of input (`EOFError`) is not modelled.
- `ChainlitAgent.__init__` and `on_chat_start` are not modelled. `__init__` stores `speak` and `file_path` and, when `speak` is set, builds a client by speaker and style name, which is the by-name branch of `GetSpeakerId` (modelled, including its `KeyError`). `on_chat_start` builds the settings widgets and calls `on_settings_update` with their initial values, which is modelled.
- `main.py`'s `on_chat_start` and the saving of the session are not modelled. The history is passed in and returned.
- `ChainlitAgent.OnSettingsUpdate` does not model a missing `Speak` or `Speaker_ID` key: the settings widget always supplies both.
- `Voicevox.GetSpeakerId` treats the speaker and style names as optional strings, so truthiness means present and non-empty. Other Python types passed there are not modelled.
- Dictionaries with a missing key are not modelled: every key the code reads is present. This leaves out the `KeyError` of an event without `content`, `run_id`, `tool_name`, `tool_input` or `tool_output` (src/services/chainlit_agent.py:93-101), and in `main.py` the `KeyError` of a node value without `messages` and the `TypeError` of a node value that is not a mapping (main.py:49).
- `MainApp.Classify` collapses the exceptions of malformed operations into one error value each. A value of the wrong shape does not model its Python traceback.

=== FILE: attachments.dfy ===
/** The text a user message carries for its attached files, and the full
    user-message content built by the two chat front ends. */
module Attachments {
  import opened Strings

  /** A file the user attached: its display name and its path inside the
      agent's workspace. */
  datatype Element = Element(name: string, path: string)

  const Workspace := "/workspace"
  const WorkspaceReplacement := "."

  /** Header used by the chainlit agent service. */
  const AttachedFilesHeader := "\n\nAttached files\n"
  /** Header used by the stand-alone chat application. */
  const AttachmentHeader := "\n\nAttachment\n"

  const InputTimeOpen := "\n\n(Input time: "
  const InputTimeClose := ")"

  /** The path as the agent sees it: every `/workspace` becomes `.`. */
  function AgentPath(path: string): (r: string)
    ensures !Occurs(r, Workspace)
  {
    ReplaceAllRemovesPattern(path, Workspace, WorkspaceReplacement);
    ReplaceAll(path, Workspace, WorkspaceReplacement)
  }

  /** Paths that never mention the workspace are passed through as they are. */
  lemma {:induction false} AgentPathOutsideWorkspace(path: string)
    requires !Occurs(path, Workspace)
    ensures AgentPath(path) == path
  {
    ReplaceAllWithoutMatch(path, Workspace, WorkspaceReplacement);
  }

  /** The first `/workspace` becomes `.`, and the rest of the path is
      rewritten in turn: `/workspace/files/a.png` is shown as
      `./files/a.png`. */
  lemma {:induction false} AgentPathRewritesWorkspace(before: string, rest: string)
    requires forall i: nat | i < |before| :: !MatchesAt(before + Workspace + rest, Workspace, i)
    ensures AgentPath(before + Workspace + rest) == before + WorkspaceReplacement + AgentPath(rest)
  {
    ReplaceAllAtFirstMatch(before, Workspace, WorkspaceReplacement, rest);
  }

  /** A path that starts in the workspace is shown relative to `.`. */
  lemma {:induction false} AgentPathInWorkspace(rest: string)
    ensures AgentPath(Workspace + rest) == "." + AgentPath(rest)
  {
    assert "" + Workspace + rest == Workspace + rest;
    ReplaceAllAtFirstMatch("", Workspace, WorkspaceReplacement, rest);
  }

  /** An uploaded file under the workspace is shown under `./files/`. */
  lemma {:induction false} UploadedFileScenario()
    ensures AgentPath(Workspace + "/files/a.png") == "." + "/files/a.png"
  {
    FilesOutsideWorkspace("/files/a.png");
    AgentPathOutsideWorkspace("/files/a.png");
    AgentPathInWorkspace("/files/a.png");
  }

  lemma {:induction false} FilesOutsideWorkspace(rest: string)
    requires rest == "/files/a.png"
    ensures !Occurs(rest, Workspace)
  {
    forall i: nat | i <= |rest|
      ensures !MatchesAt(rest, Workspace, i)
    {
      if i + |Workspace| <= |rest| {
        assert rest[i..i + |Workspace|][1] == rest[i + 1] != Workspace[1];
      }
    }
  }

  /** `- name (path: P)` followed by a newline, where `P` is the path as
      the agent sees it. */
  function Line(e: Element): (r: string)
    ensures StartsWith(r, "- " + e.name + " (path: ")
    ensures EndsWith(r, ")\n")
    ensures |r| == |"- " + e.name + " (path: "| + |AgentPath(e.path)| + 2
    ensures r[|"- " + e.name + " (path: "|..|r| - 2] == AgentPath(e.path)
  {
    "- " + e.name + " (path: " + AgentPath(e.path) + ")\n"
  }

  /** The accumulated `attachment_file_text`: one line per element, in
      element order. */
  function AttachmentText(elements: seq<Element>): (r: string)
    ensures |r| > 0 <==> |elements| > 0
    decreases |elements|
  {
    if |elements| == 0 then ""
    else AttachmentText(elements[..|elements| - 1]) + Line(elements[|elements| - 1])
  }

  lemma {:induction false} AttachmentTextAppend(a: seq<Element>, b: seq<Element>)
    ensures AttachmentText(a + b) == AttachmentText(a) + AttachmentText(b)
    decreases |b|
  {
    if |b| == 0 {
      assert a + b == a;
    } else {
      var b' := b[..|b| - 1];
      var e := b[|b| - 1];
      assert (a + b)[..|a + b| - 1] == a + b';
      assert (a + b)[|a + b| - 1] == e;
      AttachmentTextAppend(a, b');
      assert AttachmentText(a + b) == AttachmentText(a + b') + Line(e);
      assert AttachmentText(b) == AttachmentText(b') + Line(e);
    }
  }

  /** Element `i` contributes exactly its own line, between the lines of
      the elements before it and those after it. */
  lemma {:induction false} AttachmentTextLine(elements: seq<Element>, i: nat)
    requires i < |elements|
    ensures AttachmentText(elements)
         == AttachmentText(elements[..i]) + Line(elements[i]) + AttachmentText(elements[i + 1..])
  {
    assert elements == elements[..i] + [elements[i]] + elements[i + 1..];
    LineBetween(elements[..i], elements[i], elements[i + 1..]);
  }

  lemma {:induction false} LineBetween(a: seq<Element>, e: Element, b: seq<Element>)
    ensures AttachmentText(a + [e] + b) == AttachmentText(a) + Line(e) + AttachmentText(b)
  {
    AttachmentTextAppend(a + [e], b);
    AttachmentTextAppend(a, [e]);
    SingleLine(e);
  }

  lemma {:induction false} SingleLine(e: Element)
    ensures AttachmentText([e]) == Line(e)
  {
    assert [e][..0] == [];
  }

  /** Number of occurrences of `c` in `s`. */
  function CountChar(s: string, c: char): nat
    decreases |s|
  {
    if |s| == 0 then 0 else CountChar(s[..|s| - 1], c) + (if s[|s| - 1] == c then 1 else 0)
  }

  lemma {:induction false} CountCharAppend(a: string, b: string, c: char)
    ensures CountChar(a + b, c) == CountChar(a, c) + CountChar(b, c)
    decreases |b|
  {
    if |b| == 0 {
      assert a + b == a;
    } else {
      assert (a + b)[..|a + b| - 1] == a + b[..|b| - 1];
      CountCharAppend(a, b[..|b| - 1], c);
    }
  }

  lemma {:induction false} NoCharCount(s: string, c: char)
    requires c !in s
    ensures CountChar(s, c) == 0
    decreases |s|
  {
    if |s| > 0 {
      assert s[..|s| - 1] + [s[|s| - 1]] == s;
      NoCharCount(s[..|s| - 1], c);
    }
  }

  /** When no name or path contains a newline, the attachment text has
      exactly one line per attached file. */
  lemma {:induction false} OneLinePerElement(elements: seq<Element>)
    requires forall i :: 0 <= i < |elements| ==> '\n' !in elements[i].name && '\n' !in elements[i].path
    ensures CountChar(AttachmentText(elements), '\n') == |elements|
    decreases |elements|
  {
    if |elements| > 0 {
      var e := elements[|elements| - 1];
      OneLinePerElement(elements[..|elements| - 1]);
      CountCharAppend(AttachmentText(elements[..|elements| - 1]), Line(e), '\n');
      LineHasOneNewline(e);
    }
  }

  lemma {:induction false} LineHasOneNewline(e: Element)
    requires '\n' !in e.name && '\n' !in e.path
    ensures CountChar(Line(e), '\n') == 1
  {
    var p := AgentPath(e.path);
    AgentPathKeepsNewlineFree(e.path);
    var head := "- " + e.name + " (path: " + p + ")";
    assert Line(e) == head + "\n";
    assert '\n' !in head;
    NoCharCount(head, '\n');
    assert (head + "\n")[..|head|] == head;
  }

  /** Rewriting `/workspace` to `.` cannot introduce a newline. */
  lemma {:induction false} AgentPathKeepsNewlineFree(path: string)
    requires '\n' !in path
    ensures '\n' !in AgentPath(path)
  {
    ReplaceAllKeepsChar(path, Workspace, WorkspaceReplacement, '\n');
  }

  lemma {:induction false} ReplaceAllKeepsChar(s: string, pat: string, rep: string, c: char)
    requires |pat| > 0 && c !in s && c !in rep
    ensures c !in ReplaceAll(s, pat, rep)
    decreases |s|
  {
    if |s| < |pat| {
    } else if MatchesAt(s, pat, 0) {
      ReplaceAllKeepsChar(s[|pat|..], pat, rep, c);
    } else {
      ReplaceAllKeepsChar(s[1..], pat, rep, c);
    }
  }

  /** Content of the user message in the chainlit agent service: the typed
      text, the attachment block when there is at least one file, then the
      input time. */
  function AgentUserContent(content: string, elements: seq<Element>, inputTime: string): (r: string)
    ensures StartsWith(r, content)
    ensures EndsWith(r, InputTimeOpen + inputTime + InputTimeClose)
    ensures |elements| == 0 ==> r == content + InputTimeOpen + inputTime + InputTimeClose
    ensures |elements| > 0
        ==> r == content + AttachedFilesHeader + AttachmentText(elements) + InputTimeOpen + inputTime + InputTimeClose
  {
    var text := AttachmentText(elements);
    var withFiles := if |text| > 0 then content + AttachedFilesHeader + text else content;
    withFiles + InputTimeOpen + inputTime + InputTimeClose
  }

  /** Content of the user message in the stand-alone chat application:
      the typed text and, when there is at least one file, the attachment
      block; no input time. */
  function AppUserContent(content: string, elements: seq<Element>): (r: string)
    ensures StartsWith(r, content)
    ensures |elements| == 0 ==> r == content
    ensures |elements| > 0 ==> r == content + AttachmentHeader + AttachmentText(elements)
  {
    var text := AttachmentText(elements);
    if |text| > 0 then content + AttachmentHeader + text else content
  }
}

=== FILE: chainlit_agent.dfy ===
/** `ChainlitAgent`: one chat turn driven by the agent's kind-tagged event
    stream, and the settings update that picks the text-to-speech voice.
    Chainlit's message and step widgets become values: `stream_token`
    appends to the reply text, and the `steps` dict is a map from run id
    to step. */
module ChainlitAgent {
  import opened Wrappers
  import opened History
  import opened Attachments
  import opened Events
  import Voicevox

  /** A tool step: its name, its input and, once a matching end event has
      arrived, its output. */
  datatype Step = Step(name: string, input: string, output: Option<string>)

  /** What the turn has shown so far: the streamed reply text and the steps
      by run id. */
  datatype Progress = Progress(streamed: string, steps: map<string, Step>)

  /** The end of the event loop: either every event was handled, or an end
      event named a run id the `steps` dict did not hold (`KeyError`). */
  datatype FoldOutcome =
    | Finished(progress: Progress)
    | Raised(missingRunId: string, progress: Progress)

  /** One iteration of the `async for` loop. */
  function Apply(p: Progress, e: Event): (r: Result<Progress, string>)
    ensures r.Failure? <==> e.kind == ToolEnd && e.runId !in p.steps
    ensures r.Failure? ==> r.error == e.runId
    ensures r.Success? ==> r.value.streamed == p.streamed + TokenText(e)
    ensures r.Success? && e.kind == ToolStart ==>
      r.value.steps.Keys == p.steps.Keys + {e.runId}
      && r.value.steps[e.runId] == Step(e.toolName, e.toolInput, None)
    ensures r.Success? && e.kind == ToolEnd ==>
      r.value.steps.Keys == p.steps.Keys
      && r.value.steps[e.runId] == p.steps[e.runId].(output := Some(e.toolOutput))
    ensures r.Success? && e.kind != ToolStart && e.kind != ToolEnd ==> r.value.steps == p.steps
    ensures r.Success? ==>
      forall id :: id in p.steps && id != e.runId ==> id in r.value.steps && r.value.steps[id] == p.steps[id]
  {
    if e.kind == ChatModelStream then
      Success(p.(streamed := p.streamed + e.content))
    else if e.kind == ToolStart then
      Success(p.(steps := p.steps[e.runId := Step(e.toolName, e.toolInput, None)]))
    else if e.kind == ToolEnd then
      if e.runId in p.steps then
        Success(p.(steps := p.steps[e.runId := p.steps[e.runId].(output := Some(e.toolOutput))]))
      else
        Failure(e.runId)
    else
      Success(p)
  }

  /** Run ids of the start events in the stream. */
  function StartedIds(events: seq<Event>): set<string>
    decreases |events|
  {
    if |events| == 0 then {}
    else
      var last := events[|events| - 1];
      StartedIds(events[..|events| - 1]) + (if last.kind == ToolStart then {last.runId} else {})
  }

  /** Every end event names a run id that was already known before it:
      one in `known`, or one started earlier in the stream. */
  ghost predicate EndsMatched(known: set<string>, events: seq<Event>) {
    forall i :: 0 <= i < |events| && events[i].kind == ToolEnd ==>
      events[i].runId in known + StartedIds(events[..i])
  }

  /** The event loop over a finite stream. */
  function Fold(p: Progress, events: seq<Event>): (r: FoldOutcome)
    ensures r.Finished? ==> r.progress.streamed == p.streamed + StreamText(events)
    ensures r.Finished? ==> r.progress.steps.Keys == p.steps.Keys + StartedIds(events)
    decreases |events|
  {
    if |events| == 0 then Finished(p)
    else
      match Fold(p, events[..|events| - 1])
      case Raised(id, q) => Raised(id, q)
      case Finished(q) =>
        match Apply(q, events[|events| - 1])
        case Failure(id) => Raised(id, q)
        case Success(q') => Finished(q')
  }

  /** The loop completes exactly when no end event precedes the start of
      its run id; tool calls left without an end are not noticed. */
  lemma {:induction false} FoldFinishedIff(p: Progress, events: seq<Event>)
    ensures Fold(p, events).Finished? <==> EndsMatched(p.steps.Keys, events)
    decreases |events|
  {
    if |events| > 0 {
      var n := |events| - 1;
      var init := events[..n];
      FoldFinishedIff(p, init);
      assert forall i :: 0 <= i < n ==> init[i] == events[i] && init[..i] == events[..i];
      assert events[..n] == init;
      if EndsMatched(p.steps.Keys, events) {
        assert EndsMatched(p.steps.Keys, init);
      } else if EndsMatched(p.steps.Keys, init) {
        var i :| 0 <= i < |events| && events[i].kind == ToolEnd
          && events[i].runId !in p.steps.Keys + StartedIds(events[..i]);
        assert i == n;
      }
    }
  }

  /** When the loop stops on an unknown run id, it stops at the first end
      event whose run id is unknown: every end before it matched. The reply
      shows the tokens of the events before it, and the steps are those
      started before it. */
  lemma {:induction false} FoldRaisedShowsPrefix(p: Progress, events: seq<Event>)
    requires Fold(p, events).Raised?
    ensures exists i :: (0 <= i < |events|
      && events[i].kind == ToolEnd
      && events[i].runId == Fold(p, events).missingRunId
      && events[i].runId !in p.steps.Keys + StartedIds(events[..i])
      && EndsMatched(p.steps.Keys, events[..i])
      && Fold(p, events).progress.streamed == p.streamed + StreamText(events[..i])
      && Fold(p, events).progress.steps.Keys == p.steps.Keys + StartedIds(events[..i]))
    decreases |events|
  {
    var n := |events| - 1;
    var init := events[..n];
    match Fold(p, init)
    case Raised(_, _) =>
      FoldRaisedShowsPrefix(p, init);
      var i :| 0 <= i < |init|
        && init[i].kind == ToolEnd
        && init[i].runId == Fold(p, init).missingRunId
        && init[i].runId !in p.steps.Keys + StartedIds(init[..i])
        && EndsMatched(p.steps.Keys, init[..i])
        && Fold(p, init).progress.streamed == p.streamed + StreamText(init[..i])
        && Fold(p, init).progress.steps.Keys == p.steps.Keys + StartedIds(init[..i]);
      assert init[i] == events[i] && init[..i] == events[..i];
    case Finished(q) =>
      assert events[..n] == init;
      FoldFinishedIff(p, init);
  }

  /** A second start with the same run id replaces the first step instead
      of failing. */
  lemma {:induction false} RestartOverwrites(p: Progress, first: Event, second: Event)
    requires first.kind == ToolStart && second.kind == ToolStart
    requires first.runId == second.runId
    ensures Fold(p, [first, second]).Finished?
    ensures Fold(p, [first, second]).progress.steps[second.runId]
         == Step(second.toolName, second.toolInput, None)
  {
    assert [first, second][..1] == [first];
    assert [first][..0] == [];
    var q1 := p.(steps := p.steps[first.runId := Step(first.toolName, first.toolInput, None)]);
    assert Fold(p, [first]) == Finished(q1);
  }

  /** The reply: its streamed text, the `steps` dict at the end of the
      turn (a repeated start replaces its entry there, while the earlier
      step widget stays on screen), and the audio elements attached after
      the text was sent. */
  datatype Reply = Reply(content: string, steps: map<string, Step>, audio: seq<string>)

  /** The effect of `on_message`: the history list it was handed (which it
      extends in place), the reply shown, and the returned `AIMessage` or
      the run id whose lookup raised. */
  datatype Turn = Turn(history: seq<Message>, reply: Reply, answer: Result<Message, string>)

  /** `ChainlitAgent.on_message`. The clock reading is `inputTime`; the
      text-to-speech collaborator's resulting file is `audioPath`. */
  function OnMessage(history: seq<Message>, content: string, elements: seq<Element>,
                     inputTime: string, events: seq<Event>, speak: bool, audioPath: string): (t: Turn)
    ensures t.history == history + [Human(AgentUserContent(content, elements, inputTime))]
    ensures t.answer.Success? ==> t.answer.value == Ai(StreamText(events)) && t.reply.content == StreamText(events)
    ensures t.answer.Success? ==> t.reply.steps.Keys == StartedIds(events)
    ensures t.answer.Success? ==> t.reply.audio == (if speak then [audioPath] else [])
    ensures t.answer.Failure? ==> t.reply.audio == []
    ensures t.reply.content == Fold(Progress("", map[]), events).progress.streamed
    ensures t.reply.steps == Fold(Progress("", map[]), events).progress.steps
  {
    var h := history + [Human(AgentUserContent(content, elements, inputTime))];
    assert "" + StreamText(events) == StreamText(events);
    match Fold(Progress("", map[]), events)
    case Raised(id, q) => Turn(h, Reply(q.streamed, q.steps, []), Failure(id))
    case Finished(q) =>
      var audio := if speak then [audioPath] else [];
      Turn(h, Reply(q.streamed, q.steps, audio), Success(Ai(q.streamed)))
  }

  /** The turn fails exactly when some end event has no earlier start with
      its run id. */
  lemma {:induction false} OnMessageFailsIff(history: seq<Message>, content: string, elements: seq<Element>,
                          inputTime: string, events: seq<Event>, speak: bool, audioPath: string)
    ensures OnMessage(history, content, elements, inputTime, events, speak, audioPath).answer.Success?
        <==> EndsMatched({}, events)
  {
    FoldFinishedIff(Progress("", map[]), events);
  }

  /** A failed turn stops at the first end event whose run id was never
      started; the user has by then been shown the tokens and the steps of
      the events before it. */
  lemma {:induction false} OnMessageRaisedShowsPrefix(history: seq<Message>, content: string, elements: seq<Element>,
                                                      inputTime: string, events: seq<Event>, speak: bool, audioPath: string)
    requires OnMessage(history, content, elements, inputTime, events, speak, audioPath).answer.Failure?
    ensures exists i :: (0 <= i < |events|
      && events[i].kind == ToolEnd
      && events[i].runId == OnMessage(history, content, elements, inputTime, events, speak, audioPath).answer.error
      && events[i].runId !in StartedIds(events[..i])
      && EndsMatched({}, events[..i])
      && OnMessage(history, content, elements, inputTime, events, speak, audioPath).reply.content == StreamText(events[..i])
      && OnMessage(history, content, elements, inputTime, events, speak, audioPath).reply.steps.Keys == StartedIds(events[..i]))
  {
    var p0 := Progress("", map[]);
    FoldRaisedShowsPrefix(p0, events);
    var i :| 0 <= i < |events|
      && events[i].kind == ToolEnd
      && events[i].runId == Fold(p0, events).missingRunId
      && events[i].runId !in p0.steps.Keys + StartedIds(events[..i])
      && EndsMatched(p0.steps.Keys, events[..i])
      && Fold(p0, events).progress.streamed == p0.streamed + StreamText(events[..i])
      && Fold(p0, events).progress.steps.Keys == p0.steps.Keys + StartedIds(events[..i]);
    assert p0.steps.Keys == {};
    assert p0.streamed + StreamText(events[..i]) == StreamText(events[..i]);
  }

  /** Text-to-speech only attaches audio; the returned message is the same
      whether `speak` is on or off. This follows from the definitions alone,
      so the lemma needs no proof steps. */
  lemma {:induction false} SpeakLeavesAnswerUnchanged(history: seq<Message>, content: string, elements: seq<Element>,
                                   inputTime: string, events: seq<Event>, audioPath: string)
    ensures OnMessage(history, content, elements, inputTime, events, true, audioPath).answer
         == OnMessage(history, content, elements, inputTime, events, false, audioPath).answer
    ensures OnMessage(history, content, elements, inputTime, events, true, audioPath).reply.content
         == OnMessage(history, content, elements, inputTime, events, false, audioPath).reply.content
  {
  }

  /** Two tokens and one completed tool call: the answer is the two tokens
      joined, and the step carries the tool's output. */
  lemma {:induction false} TokensAndToolScenario(history: seq<Message>)
    ensures
      var events := [
        Event(ChatModelStream, "Hel", "", "", "", ""),
        Event(ChatModelStream, "lo", "", "", "", ""),
        Event(ToolStart, "", "run1", "search", "{\"q\":\"x\"}", ""),
        Event(ToolEnd, "", "run1", "search", "{\"q\":\"x\"}", "3 results")];
      var t := OnMessage(history, "hi", [], "T", events, false, "");
      && t.answer == Success(Ai("Hello"))
      && t.reply.steps == map["run1" := Step("search", "{\"q\":\"x\"}", Some("3 results"))]
      && |t.history| == |history| + 1
  {
    var e1 := Event(ChatModelStream, "Hel", "", "", "", "");
    var e2 := Event(ChatModelStream, "lo", "", "", "", "");
    var e3 := Event(ToolStart, "", "run1", "search", "{\"q\":\"x\"}", "");
    var e4 := Event(ToolEnd, "", "run1", "search", "{\"q\":\"x\"}", "3 results");
    ScenarioFold(e1, e2, e3, e4);
  }

  lemma {:induction false} ScenarioFold(e1: Event, e2: Event, e3: Event, e4: Event)
    requires e1 == Event(ChatModelStream, "Hel", "", "", "", "")
    requires e2 == Event(ChatModelStream, "lo", "", "", "", "")
    requires e3 == Event(ToolStart, "", "run1", "search", "{\"q\":\"x\"}", "")
    requires e4 == Event(ToolEnd, "", "run1", "search", "{\"q\":\"x\"}", "3 results")
    ensures Fold(Progress("", map[]), [e1, e2, e3, e4])
         == Finished(Progress("Hello", map["run1" := Step("search", "{\"q\":\"x\"}", Some("3 results"))]))
  {
    var s := Step("search", "{\"q\":\"x\"}", None);
    var q3 := Progress("Hello", map["run1" := s]);
    var q4 := Progress("Hello", map["run1" := s.(output := Some("3 results"))]);
    ScenarioStart(e1, e2, e3);
    FoldStep(Progress("", map[]), [e1, e2, e3], e4, q3);
    assert [e1, e2, e3] + [e4] == [e1, e2, e3, e4];
    assert q3.steps["run1" := q3.steps["run1"].(output := Some("3 results"))] == q4.steps;
    assert Apply(q3, e4) == Success(q4);
  }

  lemma {:induction false} ScenarioStart(e1: Event, e2: Event, e3: Event)
    requires e1 == Event(ChatModelStream, "Hel", "", "", "", "")
    requires e2 == Event(ChatModelStream, "lo", "", "", "", "")
    requires e3 == Event(ToolStart, "", "run1", "search", "{\"q\":\"x\"}", "")
    ensures Fold(Progress("", map[]), [e1, e2, e3])
         == Finished(Progress("Hello", map["run1" := Step("search", "{\"q\":\"x\"}", None)]))
  {
    var q2 := Progress("Hello", map[]);
    var q3 := Progress("Hello", map["run1" := Step("search", "{\"q\":\"x\"}", None)]);
    ScenarioTokens(e1, e2);
    FoldStep(Progress("", map[]), [e1, e2], e3, q2);
    assert [e1, e2] + [e3] == [e1, e2, e3];
    assert Apply(q2, e3) == Success(q3);
  }

  lemma {:induction false} ScenarioTokens(e1: Event, e2: Event)
    requires e1 == Event(ChatModelStream, "Hel", "", "", "", "")
    requires e2 == Event(ChatModelStream, "lo", "", "", "", "")
    ensures Fold(Progress("", map[]), [e1, e2]) == Finished(Progress("Hello", map[]))
  {
    var p0 := Progress("", map[]);
    assert Fold(p0, []) == Finished(p0);
    FoldStep(p0, [], e1, p0);
    assert [] + [e1] == [e1];
    FoldStep(p0, [e1], e2, Progress("Hel", map[]));
    assert [e1] + [e2] == [e1, e2];
  }

  /** One more event after a completed loop: the loop completes exactly
      when that event applies. */
  lemma {:induction false} FoldStep(p: Progress, init: seq<Event>, e: Event, q: Progress)
    requires Fold(p, init) == Finished(q)
    ensures Apply(q, e).Success? ==> Fold(p, init + [e]) == Finished(Apply(q, e).value)
    ensures Apply(q, e).Failure? ==> Fold(p, init + [e]) == Raised(e.runId, q)
  {
    assert (init + [e])[..|init|] == init;
    assert (init + [e])[|init|] == e;
  }

  /** A tool end whose run id never started fails the turn, while the user
      message stays in the history. */
  lemma {:induction false} UnknownEndScenario(history: seq<Message>, runId: string)
    ensures
      var t := OnMessage(history, "hi", [], "T", [Event(ToolEnd, "", runId, "", "", "")], false, "");
      && t.answer == Failure(runId)
      && |t.history| == |history| + 1
  {
    var events := [Event(ToolEnd, "", runId, "", "", "")];
    assert events[..0] == [];
    assert Fold(Progress("", map[]), events) == Raised(runId, Progress("", map[]));
  }

  /** The chat settings: the `Speak` switch and the `Speaker_ID` selection. */
  datatype Settings = Settings(speak: bool, speakerId: string)

  /** The agent's text-to-speech configuration: whether to speak, and the
      speaker id of its VOICEVOX client, if one was ever built. */
  datatype Config = Config(speak: bool, voice: Option<Voicevox.SpeakerRef>)

  datatype SettingsOutcome = SettingsOutcome(config: Config, error: Option<Voicevox.VoiceError>)

  /** `ChainlitAgent.on_settings_update`. `speak` is assigned first; the
      new client is built from the selected id alone, so an empty selection
      raises after `speak` has already changed and keeps the old client. */
  function OnSettingsUpdate(cfg: Config, s: Settings, data: Voicevox.Catalogue): (r: SettingsOutcome)
    ensures r.config.speak == s.speak
    ensures |s.speakerId| > 0 ==> r.error == None && r.config.voice == Some(Voicevox.GivenId(s.speakerId))
    ensures |s.speakerId| == 0 ==> r.error == Some(Voicevox.ValueError) && r.config.voice == cfg.voice
  {
    var cfg' := cfg.(speak := s.speak);
    match Voicevox.GetSpeakerId(None, None, Some(s.speakerId), data)
    case Success(id) => SettingsOutcome(cfg'.(voice := Some(id)), None)
    case Failure(err) => SettingsOutcome(cfg', Some(err))
  }
}

=== FILE: events.dfy ===
/** The kind-tagged events the agent's `astream_events` yields, as read by
    the chainlit agent service and the command-line test driver. */
module Events {

  const ChatModelStream := "on_chat_model_stream"
  const ToolStart := "on_tool_start"
  const ToolEnd := "on_tool_end"

  /** One event dictionary. Every key the code reads is present, so a
      missing key and its `KeyError` are outside the model. Only the fields
      a given kind is read for matter; the others are ignored. */
  datatype Event = Event(
    kind: string,
    content: string,
    runId: string,
    toolName: string,
    toolInput: string,
    toolOutput: string)

  predicate IsToken(e: Event) {
    e.kind == ChatModelStream
  }

  /** The text an event contributes to the answer: its `content` when it
      is a model-stream event, nothing otherwise. */
  function TokenText(e: Event): string {
    if IsToken(e) then e.content else ""
  }

  /** The answer text: the concatenation, in arrival order, of the
      `content` of every model-stream event. */
  function StreamText(events: seq<Event>): string
    decreases |events|
  {
    if |events| == 0 then ""
    else StreamText(events[..|events| - 1]) + TokenText(events[|events| - 1])
  }

  lemma {:induction false} StreamTextAppend(a: seq<Event>, b: seq<Event>)
    ensures StreamText(a + b) == StreamText(a) + StreamText(b)
    decreases |b|
  {
    if |b| == 0 {
      assert a + b == a;
    } else {
      var b' := b[..|b| - 1];
      var e := b[|b| - 1];
      assert (a + b)[..|a + b| - 1] == a + b';
      assert (a + b)[|a + b| - 1] == e;
      StreamTextAppend(a, b');
      assert StreamText(a + b) == StreamText(a + b') + TokenText(e);
      assert StreamText(b) == StreamText(b') + TokenText(e);
    }
  }

  /** A tool event, or an event of any unknown kind, inserted anywhere in
      the stream leaves the answer text unchanged. */
  lemma {:induction false} NonTokenIgnored(a: seq<Event>, e: Event, b: seq<Event>)
    requires !IsToken(e)
    ensures StreamText(a + [e] + b) == StreamText(a + b)
  {
    StreamTextAppend(a + [e], b);
    StreamTextAppend(a, [e]);
    StreamTextAppend(a, b);
    assert [e][..0] == [];
  }
}

=== FILE: history.dfy ===
/** The conversation history handed to the agent: LangChain's
    `HumanMessage` and `AIMessage`, kept in the order they were appended. */
module History {

  datatype Message = Human(content: string) | Ai(content: string)

  /** Messages alternate human/agent, starting with a human one, and every
      human message has its answer. */
  predicate Alternating(h: seq<Message>) {
    && |h| % 2 == 0
    && forall i :: 0 <= i < |h| ==> (h[i].Human? <==> i % 2 == 0)
  }

  /** Appending one completed turn keeps the history alternating. */
  lemma {:induction false} AppendTurn(h: seq<Message>, query: string, answer: string)
    requires Alternating(h)
    ensures Alternating(h + [Human(query), Ai(answer)])
  {
    var h' := h + [Human(query), Ai(answer)];
    forall i | 0 <= i < |h'|
      ensures h'[i].Human? <==> i % 2 == 0
    {
      if i < |h| {
        assert h'[i] == h[i];
      }
    }
  }
}

=== FILE: main_app.dfy ===
/** The stand-alone chat application's `on_message`: it reads the agent's
    `astream_log` output, a finite list of outputs each holding a list of
    path-addressed operations, shows tool and function-call steps, streams
    text chunks, and records the turn in the session history. */
module MainApp {
  import opened Wrappers
  import opened Strings
  import opened History
  import opened Attachments

  const StreamedOutputPath := "/streamed_output/-"
  const LogsPrefix := "/logs/"
  const StreamedOutputStrSuffix := "/streamed_output_str/-"
  const ActionNode := "action"
  const Fence := "```"

  /** A message's `additional_kwargs`: empty (or absent), a `function_call`
      with its name and arguments, or non-empty without a `function_call`
      entry. */
  datatype Kwargs =
    | NoKwargs
    | FunctionCall(functionName: string, arguments: string)
    | OtherKwargs

  /** A LangChain message inside a node's `messages` list. */
  datatype NodeMessage = NodeMessage(name: string, content: string, kwargs: Kwargs)

  /** One key of an operation's value: a graph node and its messages. */
  datatype NodeEntry = NodeEntry(node: string, messages: seq<NodeMessage>)

  /** An operation's `value`: a mapping from node names (in key order) or
      a text chunk. */
  datatype OpValue = Nodes(entries: seq<NodeEntry>) | Text(text: string)

  datatype Op = Op(path: string, value: OpValue)

  /** A step shown to the user: its name and its output text. */
  datatype StepView = StepView(name: string, output: string)

  /** Exceptions an operation raises when every key the code reads is
      present: `IndexError` on an empty mapping or an empty `messages` list,
      `KeyError` on kwargs without `function_call`, a text value on the step
      path (where `.keys()` is called), or a mapping on a chunk path (where a
      string is streamed). A missing key and a node value that is not a
      mapping are outside the model: `NodeEntry` always has `messages`. */
  datatype OpError = EmptyValue | EmptyMessages | MissingFunctionCall | NotAMapping | NotText

  /** What one operation does to the turn. */
  datatype Effect = ShowStep(step: StepView) | AddChunk(chunk: string) | Skip | Crash(error: OpError)

  predicate IsChunkPath(path: string) {
    StartsWith(path, LogsPrefix) && EndsWith(path, StreamedOutputStrSuffix)
  }

  function Fenced(body: string): string {
    Fence + "\n" + body + "\n" + Fence
  }

  /** The step a node's last message gives rise to, if any. */
  function ClassifyMessage(node: string, m: NodeMessage): (r: Effect)
    ensures r.ShowStep? || r.Skip? || r == Crash(MissingFunctionCall)
    ensures node == ActionNode ==> r == ShowStep(StepView(m.name, Fenced(m.content)))
    ensures node != ActionNode && m.kwargs.FunctionCall? ==>
      r.ShowStep? && r.step.name == node
      && StartsWith(r.step.output, "function call: " + m.kwargs.functionName)
    ensures node != ActionNode && m.kwargs.FunctionCall? ==>
      r.ShowStep? && EndsWith(r.step.output, "\n\n" + Fenced(m.kwargs.arguments))
    ensures node != ActionNode && m.kwargs.FunctionCall? ==>
      |r.step.output| == |"function call: " + m.kwargs.functionName| + |"\n\n" + Fenced(m.kwargs.arguments)|
    ensures node != ActionNode && m.kwargs.OtherKwargs? ==> r == Crash(MissingFunctionCall)
    ensures r.Skip? <==> node != ActionNode && m.kwargs.NoKwargs?
  {
    if node == ActionNode then
      ShowStep(StepView(m.name, Fenced(m.content)))
    else
      match m.kwargs
      case FunctionCall(f, args) =>
        ShowStep(StepView(node, "function call: " + f + "\n\n" + Fenced(args)))
      case OtherKwargs => Crash(MissingFunctionCall)
      case NoKwargs => Skip
  }

  /** One pass of the inner `for op in output.ops` loop body. */
  function Classify(op: Op): (r: Effect)
    ensures r.ShowStep? ==> op.path == StreamedOutputPath
    ensures r.AddChunk? <==> IsChunkPath(op.path) && op.value.Text?
    ensures r.AddChunk? ==> r.chunk == op.value.text
    ensures op.path != StreamedOutputPath && !IsChunkPath(op.path) ==> r == Skip
    ensures op.path == StreamedOutputPath ==>
      match op.value
      case Text(_) => r == Crash(NotAMapping)
      case Nodes(entries) =>
        if |entries| == 0 then r == Crash(EmptyValue)
        else if |entries[0].messages| == 0 then r == Crash(EmptyMessages)
        else r == ClassifyMessage(entries[0].node, entries[0].messages[|entries[0].messages| - 1])
  {
    if op.path == StreamedOutputPath then
      match op.value
      case Text(_) => Crash(NotAMapping)
      case Nodes(entries) =>
        if |entries| == 0 then Crash(EmptyValue)
        else
          var entry := entries[0];
          if |entry.messages| == 0 then Crash(EmptyMessages)
          else ClassifyMessage(entry.node, entry.messages[|entry.messages| - 1])
    else if IsChunkPath(op.path) then
      match op.value
      case Text(t) => AddChunk(t)
      case Nodes(_) => Crash(NotText)
    else Skip
  }

  /** The two recognised paths never overlap, so no operation is both a
      step and a chunk. */
  lemma {:induction false} StreamedPathIsNotChunkPath()
    ensures !IsChunkPath(StreamedOutputPath)
  {
    assert StreamedOutputPath[..|LogsPrefix|] != LogsPrefix by {
      assert StreamedOutputPath[1] == 's' && LogsPrefix[1] == 'l';
    }
  }

  /** Only the prefix and the suffix are checked, so a path where they share
      their `/` counts as a chunk path. */
  lemma {:induction false} OverlappingChunkPath()
    ensures IsChunkPath("/logs/streamed_output_str/-")
  {
    var p := "/logs/streamed_output_str/-";
    assert p[..|LogsPrefix|] == LogsPrefix;
    assert p[|p| - |StreamedOutputStrSuffix|..] == StreamedOutputStrSuffix;
  }

  /** Steps shown and chunks collected so far. */
  datatype Acc = Acc(steps: seq<StepView>, chunks: seq<string>)

  /** The text of the chunk operations among `ops`, in order: the reference
      the collected chunks are checked against. */
  function ChunkText(ops: seq<Op>): string
    decreases |ops|
  {
    if |ops| == 0 then ""
    else
      var op := ops[|ops| - 1];
      ChunkText(ops[..|ops| - 1]) + (if IsChunkPath(op.path) && op.value.Text? then op.value.text else "")
  }

  lemma {:induction false} ChunkTextAppend(a: seq<Op>, b: seq<Op>)
    ensures ChunkText(a + b) == ChunkText(a) + ChunkText(b)
    decreases |b|
  {
    if |b| == 0 {
      assert a + b == a;
    } else {
      var b' := b[..|b| - 1];
      assert (a + b)[..|a + b| - 1] == a + b';
      ChunkTextAppend(a, b');
    }
  }

  /** The steps the operations among `ops` show, in order: the reference
      the steps shown are checked against. */
  function StepsOf(ops: seq<Op>): seq<StepView>
    decreases |ops|
  {
    if |ops| == 0 then []
    else
      var e := Classify(ops[|ops| - 1]);
      StepsOf(ops[..|ops| - 1]) + (if e.ShowStep? then [e.step] else [])
  }

  lemma {:induction false} StepsOfAppend(a: seq<Op>, b: seq<Op>)
    ensures StepsOf(a + b) == StepsOf(a) + StepsOf(b)
    decreases |b|
  {
    if |b| == 0 {
      assert a + b == a;
    } else {
      var b' := b[..|b| - 1];
      assert (a + b)[..|a + b| - 1] == a + b';
      assert (a + b)[|a + b| - 1] == b[|b| - 1];
      StepsOfAppend(a, b');
    }
  }

  /** The end of the inner loop: every operation handled, or the first
      one that raised, with what was shown and collected before it. */
  datatype OpsOutcome = OpsDone(acc: Acc) | OpsFailed(error: OpError, acc: Acc)

  /** The inner loop over one output's operations. */
  function RunOps(acc: Acc, ops: seq<Op>): (r: OpsOutcome)
    ensures r.OpsDone? ==> Join(r.acc.chunks) == Join(acc.chunks) + ChunkText(ops)
    ensures r.OpsDone? ==> r.acc.steps == acc.steps + StepsOf(ops)
    ensures |r.acc.steps| >= |acc.steps|
    decreases |ops|
  {
    if |ops| == 0 then OpsDone(acc)
    else
      match RunOps(acc, ops[..|ops| - 1])
      case OpsFailed(e, a) => OpsFailed(e, a)
      case OpsDone(a) =>
        match Classify(ops[|ops| - 1])
        case ShowStep(s) => OpsDone(a.(steps := a.steps + [s]))
        case AddChunk(c) =>
          JoinAppend(a.chunks, [c]);
          assert [c][..0] == [];
          OpsDone(a.(chunks := a.chunks + [c]))
        case Skip => OpsDone(a)
        case Crash(e) => OpsFailed(e, a)
  }

  /** Operation `k` is the first one that raises, and it raises `e`. */
  predicate FirstCrash(ops: seq<Op>, k: nat, e: OpError) {
    && k < |ops|
    && Classify(ops[k]) == Crash(e)
    && forall j :: 0 <= j < k ==> !Classify(ops[j]).Crash?
  }

  /** The inner loop completes exactly when no operation raises; when one
      does, it stops at the first, having collected the chunks before it. */
  lemma {:induction false} RunOpsFailure(acc: Acc, ops: seq<Op>)
    ensures RunOps(acc, ops).OpsDone? ==> forall j :: 0 <= j < |ops| ==> !Classify(ops[j]).Crash?
    ensures RunOps(acc, ops).OpsFailed? ==> exists k: nat :: (FirstCrash(ops, k, RunOps(acc, ops).error)
      && Join(RunOps(acc, ops).acc.chunks) == Join(acc.chunks) + ChunkText(ops[..k])
      && RunOps(acc, ops).acc.steps == acc.steps + StepsOf(ops[..k]))
    decreases |ops|
  {
    if |ops| > 0 {
      var n := |ops| - 1;
      var init := ops[..n];
      var lastOp := [ops[n]];
      assert ops == init + lastOp;
      RunOpsFailure(acc, init);
      match RunOps(acc, init)
      case OpsFailed(e, a) =>
        var k: nat :| FirstCrash(init, k, e) && Join(a.chunks) == Join(acc.chunks) + ChunkText(init[..k])
          && a.steps == acc.steps + StepsOf(init[..k]);
        FirstCrashBefore(init, lastOp, k, e);
      case OpsDone(a) =>
        if Classify(ops[n]).Crash? {
          assert FirstCrash(lastOp, 0, Classify(ops[n]).error);
          FirstCrashAfter(init, lastOp, 0, Classify(ops[n]).error);
          assert lastOp[..0] == [];
        } else {
          NoCrashAppend(init, lastOp);
        }
    }
  }

  function Flatten(outputs: seq<seq<Op>>): seq<Op>
    decreases |outputs|
  {
    if |outputs| == 0 then [] else Flatten(outputs[..|outputs| - 1]) + outputs[|outputs| - 1]
  }

  /** The outer `async for output in ...` loop. `res` is bound after each
      output, so it stays unbound when the stream yields nothing. */
  datatype Run = Run(acc: Acc, res: Option<string>, error: Option<OpError>)

  function RunOutputs(outputs: seq<seq<Op>>): (r: Run)
    ensures r.error.None? ==> Join(r.acc.chunks) == ChunkText(Flatten(outputs))
    ensures r.error.None? ==> r.acc.steps == StepsOf(Flatten(outputs))
    ensures r.error.None? ==> r.res == (if |outputs| == 0 then None else Some(Join(r.acc.chunks)))
    decreases |outputs|
  {
    if |outputs| == 0 then Run(Acc([], []), None, None)
    else
      var prev := RunOutputs(outputs[..|outputs| - 1]);
      if prev.error.Some? then prev
      else
        match RunOps(prev.acc, outputs[|outputs| - 1])
        case OpsFailed(e, a) => Run(a, prev.res, Some(e))
        case OpsDone(a) =>
          ChunkTextAppend(Flatten(outputs[..|outputs| - 1]), outputs[|outputs| - 1]);
          StepsOfAppend(Flatten(outputs[..|outputs| - 1]), outputs[|outputs| - 1]);
          Run(a, Some(Join(a.chunks)), None)
  }

  /** The outer loop fails exactly when some operation raises; it stops at
      the first, and the chunks streamed so far are those of the operations
      before it, across all outputs. */
  lemma {:induction false} RunOutputsFailure(outputs: seq<seq<Op>>)
    ensures RunOutputs(outputs).error.None? ==>
      forall j :: 0 <= j < |Flatten(outputs)| ==> !Classify(Flatten(outputs)[j]).Crash?
    ensures RunOutputs(outputs).error.Some? ==> exists k: nat :: (FirstCrash(Flatten(outputs), k, RunOutputs(outputs).error.value)
      && Join(RunOutputs(outputs).acc.chunks) == ChunkText(Flatten(outputs)[..k])
      && RunOutputs(outputs).acc.steps == StepsOf(Flatten(outputs)[..k]))
    decreases |outputs|
  {
    if |outputs| > 0 {
      var init := outputs[..|outputs| - 1];
      var last := outputs[|outputs| - 1];
      var fi := Flatten(init);
      assert Flatten(outputs) == fi + last;
      RunOutputsFailure(init);
      var prev := RunOutputs(init);
      if prev.error.Some? {
        var k: nat :| FirstCrash(fi, k, prev.error.value) && Join(prev.acc.chunks) == ChunkText(fi[..k])
          && prev.acc.steps == StepsOf(fi[..k]);
        FirstCrashBefore(fi, last, k, prev.error.value);
      } else {
        RunOpsFailure(prev.acc, last);
        match RunOps(prev.acc, last)
        case OpsFailed(e, a) =>
          var k: nat :| FirstCrash(last, k, e) && Join(a.chunks) == Join(prev.acc.chunks) + ChunkText(last[..k])
            && a.steps == prev.acc.steps + StepsOf(last[..k]);
          FirstCrashAfter(fi, last, k, e);
          ChunkTextAppend(fi, last[..k]);
          StepsOfAppend(fi, last[..k]);
        case OpsDone(a) =>
          NoCrashAppend(fi, last);
      }
    }
  }

  lemma {:induction false} FirstCrashBefore(a: seq<Op>, b: seq<Op>, k: nat, e: OpError)
    requires FirstCrash(a, k, e)
    ensures FirstCrash(a + b, k, e) && (a + b)[..k] == a[..k]
  {
    assert forall j :: 0 <= j <= k ==> (a + b)[j] == a[j];
  }

  lemma {:induction false} FirstCrashAfter(a: seq<Op>, b: seq<Op>, k: nat, e: OpError)
    requires forall j :: 0 <= j < |a| ==> !Classify(a[j]).Crash?
    requires FirstCrash(b, k, e)
    ensures FirstCrash(a + b, |a| + k, e) && (a + b)[..|a| + k] == a + b[..k]
  {
    forall j | 0 <= j < |a| + k
      ensures !Classify((a + b)[j]).Crash?
    {
      if j >= |a| {
        assert (a + b)[j] == b[j - |a|];
      }
    }
    assert (a + b)[|a| + k] == b[k];
  }

  lemma {:induction false} NoCrashAppend(a: seq<Op>, b: seq<Op>)
    requires forall j :: 0 <= j < |a| ==> !Classify(a[j]).Crash?
    requires forall j :: 0 <= j < |b| ==> !Classify(b[j]).Crash?
    ensures forall j :: 0 <= j < |a + b| ==> !Classify((a + b)[j]).Crash?
  {
    forall j | 0 <= j < |a + b|
      ensures !Classify((a + b)[j]).Crash?
    {
      if j >= |a| {
        assert (a + b)[j] == b[j - |a|];
      }
    }
  }

  /** Why a turn ended without an agent message: an operation raised, or
      the stream was empty and `res` was never bound. */
  datatype TurnError = OpFailed(error: OpError) | UnboundResult

  datatype Turn = Turn(history: seq<Message>, steps: seq<StepView>, streamed: string, error: Option<TurnError>)

  /** `on_message` of the stand-alone application. */
  function OnMessage(history: seq<Message>, content: string, elements: seq<Element>,
                     outputs: seq<seq<Op>>): (t: Turn)
    ensures t.error.None? ==>
      t.history == history + [Human(AppUserContent(content, elements)), Ai(ChunkText(Flatten(outputs)))]
    ensures t.error.Some? ==> t.history == history + [Human(AppUserContent(content, elements))]
    ensures t.error == Some(UnboundResult) <==> |outputs| == 0
    ensures t.error.None? ==> t.streamed == ChunkText(Flatten(outputs))
    ensures t.error.None? ==> t.steps == StepsOf(Flatten(outputs))
  {
    var h := history + [Human(AppUserContent(content, elements))];
    var run := RunOutputs(outputs);
    var streamed := Join(run.acc.chunks);
    match run.error
    case Some(e) => Turn(h, run.acc.steps, streamed, Some(OpFailed(e)))
    case None =>
      match run.res
      case None => Turn(h, run.acc.steps, streamed, Some(UnboundResult))
      case Some(res) => Turn(h + [Ai(res)], run.acc.steps, streamed, None)
  }

  /** A turn fails on an operation exactly when some operation of the
      stream raises; the text streamed to the user is then the chunk text of
      the operations before the first one that raised. */
  lemma {:induction false} OnMessageOpFailure(history: seq<Message>, content: string, elements: seq<Element>,
                                              outputs: seq<seq<Op>>)
    ensures (OnMessage(history, content, elements, outputs).error.Some?
             && OnMessage(history, content, elements, outputs).error.value.OpFailed?)
        <==> exists j :: 0 <= j < |Flatten(outputs)| && Classify(Flatten(outputs)[j]).Crash?
    ensures (OnMessage(history, content, elements, outputs).error.Some?
             && OnMessage(history, content, elements, outputs).error.value.OpFailed?) ==>
      exists k: nat :: (FirstCrash(Flatten(outputs), k, OnMessage(history, content, elements, outputs).error.value.error)
        && OnMessage(history, content, elements, outputs).streamed == ChunkText(Flatten(outputs)[..k])
        && OnMessage(history, content, elements, outputs).steps == StepsOf(Flatten(outputs)[..k]))
  {
    RunOutputsFailure(outputs);
    var run := RunOutputs(outputs);
    if run.error.Some? {
      var k: nat :| FirstCrash(Flatten(outputs), k, run.error.value) && Join(run.acc.chunks) == ChunkText(Flatten(outputs)[..k])
        && run.acc.steps == StepsOf(Flatten(outputs)[..k]);
      assert Classify(Flatten(outputs)[k]).Crash?;
    }
  }

  /** A successful turn grows the history by exactly a human message then an
      agent message, so an alternating history stays alternating. */
  lemma {:induction false} OnMessageKeepsAlternation(history: seq<Message>, content: string, elements: seq<Element>,
                                  outputs: seq<seq<Op>>)
    requires Alternating(history)
    ensures OnMessage(history, content, elements, outputs).error.None? ==>
      Alternating(OnMessage(history, content, elements, outputs).history)
  {
    var t := OnMessage(history, content, elements, outputs);
    if t.error.None? {
      AppendTurn(history, AppUserContent(content, elements), ChunkText(Flatten(outputs)));
      assert history + [Human(AppUserContent(content, elements)), Ai(ChunkText(Flatten(outputs)))]
          == history + [Human(AppUserContent(content, elements))] + [Ai(ChunkText(Flatten(outputs)))];
    }
  }

  /** A function-call announcement from an agent node followed by a text
      chunk: one step, and the answer is the chunk. */
  lemma {:induction false} FunctionCallThenChunkScenario(history: seq<Message>)
    ensures
      var call := NodeMessage("", "", FunctionCall("lookup", "{}"));
      var ops := [
        Op(StreamedOutputPath, Nodes([NodeEntry("agentNode", [call])])),
        Op("/logs/x/streamed_output_str/-", Text("partial"))];
      var t := OnMessage(history, "q", [], [ops]);
      && t.error.None?
      && t.steps == [StepView("agentNode", "function call: lookup\n\n```\n{}\n```")]
      && t.history == history + [Human("q"), Ai("partial")]
  {
    var call := NodeMessage("", "", FunctionCall("lookup", "{}"));
    var op1 := Op(StreamedOutputPath, Nodes([NodeEntry("agentNode", [call])]));
    var op2 := Op("/logs/x/streamed_output_str/-", Text("partial"));
    var step := StepView("agentNode", "function call: lookup\n\n```\n{}\n```");
    ScenarioOps(op1, op2, step);
    var outputs := [[op1, op2]];
    assert outputs[..0] == [];
    assert RunOutputs([]) == Run(Acc([], []), None, None);
    assert outputs[|outputs| - 1] == [op1, op2];
    assert Join(["partial"]) == "partial" by {
      assert ["partial"][..0] == [];
    }
    assert RunOutputs(outputs) == Run(Acc([step], ["partial"]), Some("partial"), None);
  }

  lemma {:induction false} ScenarioOps(op1: Op, op2: Op, step: StepView)
    requires op1 == Op(StreamedOutputPath, Nodes([NodeEntry("agentNode", [NodeMessage("", "", FunctionCall("lookup", "{}"))])]))
    requires op2 == Op("/logs/x/streamed_output_str/-", Text("partial"))
    requires step == StepView("agentNode", "function call: lookup\n\n```\n{}\n```")
    ensures RunOps(Acc([], []), [op1, op2]) == OpsDone(Acc([step], ["partial"]))
  {
    ScenarioClassify(op1, op2, step);
    var ops := [op1, op2];
    var one := [op1];
    assert ops[..|ops| - 1] == one && ops[|ops| - 1] == op2;
    assert one[..|one| - 1] == [] && one[|one| - 1] == op1;
    assert RunOps(Acc([], []), []) == OpsDone(Acc([], []));
    assert [] + [step] == [step];
    assert RunOps(Acc([], []), one) == OpsDone(Acc([step], []));
  }

  lemma {:induction false} ScenarioClassify(op1: Op, op2: Op, step: StepView)
    requires op1 == Op(StreamedOutputPath, Nodes([NodeEntry("agentNode", [NodeMessage("", "", FunctionCall("lookup", "{}"))])]))
    requires op2 == Op("/logs/x/streamed_output_str/-", Text("partial"))
    requires step == StepView("agentNode", "function call: lookup\n\n```\n{}\n```")
    ensures Classify(op1) == ShowStep(step)
    ensures Classify(op2) == AddChunk("partial")
  {
    ScenarioStep();
    ClassifyChunk(op2.path, "partial");
  }

  lemma {:induction false} ScenarioStep()
    ensures ClassifyMessage("agentNode", NodeMessage("", "", FunctionCall("lookup", "{}")))
         == ShowStep(StepView("agentNode", "function call: lookup\n\n```\n{}\n```"))
  {
  }

  lemma {:induction false} ClassifyChunk(path: string, text: string)
    requires path == "/logs/x/streamed_output_str/-"
    ensures Classify(Op(path, Text(text))) == AddChunk(text)
  {
    assert path[..|LogsPrefix|] == LogsPrefix;
    assert path[|path| - |StreamedOutputStrSuffix|..] == StreamedOutputStrSuffix;
    assert IsChunkPath(path);
    assert path != StreamedOutputPath by {
      assert path[1] != StreamedOutputPath[1];
    }
  }

  /** An empty stream leaves `res` unbound: the turn fails after the user
      message has been recorded. */
  lemma {:induction false} EmptyStreamScenario(history: seq<Message>, content: string)
    ensures OnMessage(history, content, [], []).error == Some(UnboundResult)
    ensures OnMessage(history, content, [], []).history == history + [Human(content)]
  {
  }
}

=== FILE: ordered_maps.dfy ===
/** Python dictionaries where iteration order matters: a list of key/value
    pairs in insertion order. Assigning to an existing key replaces its
    value in place; a new key goes to the end. */
module OrderedMaps {
  import opened Wrappers

  type Assoc<K, V> = seq<(K, V)>

  function Keys<K, V>(d: Assoc<K, V>): (ks: seq<K>)
    ensures |ks| == |d|
    ensures forall i :: 0 <= i < |d| ==> ks[i] == d[i].0
    decreases |d|
  {
    if |d| == 0 then [] else [d[0].0] + Keys(d[1..])
  }

  predicate UniqueKeys<K(==), V>(d: Assoc<K, V>) {
    forall i, j :: 0 <= i < j < |d| ==> d[i].0 != d[j].0
  }

  /** `d.get(k)`. */
  function Lookup<K(==), V>(d: Assoc<K, V>, k: K): Option<V>
    decreases |d|
  {
    if |d| == 0 then None
    else if d[0].0 == k then Some(d[0].1)
    else Lookup(d[1..], k)
  }

  lemma {:induction false} LookupSome<K, V>(d: Assoc<K, V>, k: K)
    ensures Lookup(d, k).Some? <==> k in Keys(d)
    ensures Lookup(d, k).Some? ==> (k, Lookup(d, k).value) in d
    decreases |d|
  {
    if |d| > 0 {
      LookupSome(d[1..], k);
      assert Keys(d) == [d[0].0] + Keys(d[1..]);
    }
  }

  /** `d[k] = v`. */
  function Put<K(==,!new), V>(d: Assoc<K, V>, k: K, v: V): (r: Assoc<K, V>)
    ensures Lookup(r, k) == Some(v)
    ensures forall k' :: k' != k ==> Lookup(r, k') == Lookup(d, k')
    decreases |d|
  {
    if |d| == 0 then [(k, v)]
    else if d[0].0 == k then [(k, v)] + d[1..]
    else [d[0]] + Put(d[1..], k, v)
  }

  /** An existing key keeps its position; a new key is appended. */
  lemma {:induction false} PutKeys<K(!new), V>(d: Assoc<K, V>, k: K, v: V)
    ensures k in Keys(d) ==> Keys(Put(d, k, v)) == Keys(d)
    ensures k !in Keys(d) ==> Keys(Put(d, k, v)) == Keys(d) + [k]
    decreases |d|
  {
    if |d| > 0 {
      if d[0].0 == k {
        assert Keys(Put(d, k, v)) == [k] + Keys(d[1..]);
      } else {
        var rest := Put(d[1..], k, v);
        PutKeys(d[1..], k, v);
        assert ([d[0]] + rest)[1..] == rest;
        assert Keys(Put(d, k, v)) == [d[0].0] + Keys(rest);
        assert k in Keys(d) <==> k in Keys(d[1..]);
        if k !in Keys(d) {
          assert [d[0].0] + (Keys(d[1..]) + [k]) == Keys(d) + [k];
        }
      }
    }
  }

  lemma {:induction false} PutUnique<K(!new), V>(d: Assoc<K, V>, k: K, v: V)
    requires UniqueKeys(d)
    ensures UniqueKeys(Put(d, k, v))
  {
    var r := Put(d, k, v);
    PutKeys(d, k, v);
    var kr := Keys(r);
    forall i, j | 0 <= i < j < |r|
      ensures r[i].0 != r[j].0
    {
      assert kr[i] == r[i].0 && kr[j] == r[j].0;
      if k !in Keys(d) && j == |r| - 1 {
        assert Keys(d)[i] == kr[i];
      } else {
        assert Keys(d)[i] == kr[i] && Keys(d)[j] == kr[j];
      }
    }
  }

  /** The dict built by assigning the pairs one after another, as a dict
      comprehension does. */
  function FromPairs<K(==,!new), V>(ps: seq<(K, V)>): (r: Assoc<K, V>)
    ensures UniqueKeys(r)
    decreases |ps|
  {
    if |ps| == 0 then []
    else
      var init := FromPairs(ps[..|ps| - 1]);
      PutUnique(init, ps[|ps| - 1].0, ps[|ps| - 1].1);
      Put(init, ps[|ps| - 1].0, ps[|ps| - 1].1)
  }

  /** Reference reading of a comprehension: the value of the last pair
      with the given key. */
  function LastValue<K(==), V>(ps: seq<(K, V)>, k: K): Option<V>
    decreases |ps|
  {
    if |ps| == 0 then None
    else if ps[|ps| - 1].0 == k then Some(ps[|ps| - 1].1)
    else LastValue(ps[..|ps| - 1], k)
  }

  lemma {:induction false} LastValueIn<K, V>(ps: seq<(K, V)>, k: K)
    ensures LastValue(ps, k).Some? ==> (k, LastValue(ps, k).value) in ps
    ensures LastValue(ps, k).None? ==> forall i :: 0 <= i < |ps| ==> ps[i].0 != k
    decreases |ps|
  {
    if |ps| > 0 {
      LastValueIn(ps[..|ps| - 1], k);
      assert forall i :: 0 <= i < |ps| - 1 ==> ps[..|ps| - 1][i] == ps[i];
    }
  }

  /** A later pair with the same key overwrites an earlier one. */
  lemma {:induction false} FromPairsLookup<K(!new), V>(ps: seq<(K, V)>, k: K)
    ensures Lookup(FromPairs(ps), k) == LastValue(ps, k)
    decreases |ps|
  {
    if |ps| > 0 {
      FromPairsLookup(ps[..|ps| - 1], k);
    }
  }

  /** Keys in order of first occurrence. */
  function Dedup<K(==)>(ks: seq<K>): seq<K>
    decreases |ks|
  {
    if |ks| == 0 then []
    else
      var p := Dedup(ks[..|ks| - 1]);
      if ks[|ks| - 1] in p then p else p + [ks[|ks| - 1]]
  }

  /** A dict comprehension keeps each key at the position of its first
      occurrence. */
  lemma {:induction false} FromPairsKeys<K(!new), V>(ps: seq<(K, V)>)
    ensures Keys(FromPairs(ps)) == Dedup(Keys(ps))
    decreases |ps|
  {
    if |ps| > 0 {
      FromPairsKeys(ps[..|ps| - 1]);
      PutKeys(FromPairs(ps[..|ps| - 1]), ps[|ps| - 1].0, ps[|ps| - 1].1);
      assert Keys(ps[..|ps| - 1]) == Keys(ps)[..|ps| - 1];
    }
  }

  /** With no repeated key, the comprehension is the pair list itself. */
  lemma {:induction false} FromPairsUnique<K(!new), V>(ps: seq<(K, V)>)
    requires UniqueKeys(ps)
    ensures FromPairs(ps) == ps
    decreases |ps|
  {
    if |ps| > 0 {
      var init := ps[..|ps| - 1];
      FromPairsUnique(init);
      assert ps[|ps| - 1].0 !in Keys(init);
      assert init + [ps[|ps| - 1]] == ps;
      PutNewKey(init, ps[|ps| - 1].0, ps[|ps| - 1].1);
    }
  }

  lemma {:induction false} PutNewKey<K(!new), V>(d: Assoc<K, V>, k: K, v: V)
    requires k !in Keys(d)
    ensures Put(d, k, v) == d + [(k, v)]
    decreases |d|
  {
    if |d| > 0 {
      assert Keys(d) == [d[0].0] + Keys(d[1..]);
      PutNewKey(d[1..], k, v);
      assert [d[0]] + (d[1..] + [(k, v)]) == d + [(k, v)];
    }
  }

  /** Every entry of the dict is one of the pairs it was built from. */
  lemma {:induction false} FromPairsMembers<K(!new), V(!new)>(ps: seq<(K, V)>)
    ensures forall x :: x in FromPairs(ps) ==> x in ps
    decreases |ps|
  {
    if |ps| > 0 {
      var init := ps[..|ps| - 1];
      FromPairsMembers(init);
      PutMembers(FromPairs(init), ps[|ps| - 1].0, ps[|ps| - 1].1);
      forall x | x in init
        ensures x in ps
      {
        var i :| 0 <= i < |init| && init[i] == x;
        assert ps[i] == x;
      }
    }
  }

  lemma {:induction false} PutMembers<K(!new), V(!new)>(d: Assoc<K, V>, k: K, v: V)
    ensures forall x :: x in Put(d, k, v) ==> x == (k, v) || x in d
    decreases |d|
  {
    if |d| > 0 && d[0].0 != k {
      PutMembers(d[1..], k, v);
    }
  }

  /** The pair at index `j` is the last one with its key, so it decides the
      value the comprehension keeps. */
  lemma {:induction false} LastValueAt<K, V>(ps: seq<(K, V)>, j: nat)
    requires j < |ps|
    requires forall k :: j < k < |ps| ==> ps[k].0 != ps[j].0
    ensures LastValue(ps, ps[j].0) == Some(ps[j].1)
    decreases |ps|
  {
    if j < |ps| - 1 {
      var init := ps[..|ps| - 1];
      assert init[j] == ps[j];
      LastValueAt(init, j);
    }
  }
}

=== FILE: strings.dfy ===
/** The Python string operations the core relies on: `startswith`,
    `endswith`, `"".join`, `str.replace` and `str(int)`. */
module Strings {
  import opened Wrappers

  predicate StartsWith(s: string, prefix: string) {
    |prefix| <= |s| && s[..|prefix|] == prefix
  }

  predicate EndsWith(s: string, suffix: string) {
    |suffix| <= |s| && s[|s| - |suffix|..] == suffix
  }

  /** `pat` occurs in `s` starting at index `i`. */
  predicate MatchesAt(s: string, pat: string, i: nat) {
    i + |pat| <= |s| && s[i..i + |pat|] == pat
  }

  predicate Occurs(s: string, pat: string) {
    exists i: nat | i <= |s| :: MatchesAt(s, pat, i)
  }

  /** No character of `a` appears in `b`. */
  predicate CharsDisjoint(a: string, b: string) {
    forall j :: 0 <= j < |a| ==> a[j] !in b
  }

  /** `"".join(parts)`. */
  function Join(parts: seq<string>): string {
    if |parts| == 0 then "" else Join(parts[..|parts| - 1]) + parts[|parts| - 1]
  }

  lemma {:induction false} JoinAppend(a: seq<string>, b: seq<string>)
    ensures Join(a + b) == Join(a) + Join(b)
    decreases |b|
  {
    if |b| == 0 {
      assert a + b == a;
    } else {
      var b' := b[..|b| - 1];
      assert (a + b)[..|a + b| - 1] == a + b';
      JoinAppend(a, b');
    }
  }

  /** Python's `s.replace(pat, rep)`: a left-to-right scan that rewrites
      every non-overlapping occurrence of `pat`. */
  function ReplaceAll(s: string, pat: string, rep: string): string
    requires |pat| > 0
    decreases |s|
  {
    if |s| < |pat| then s
    else if MatchesAt(s, pat, 0) then rep + ReplaceAll(s[|pat|..], pat, rep)
    else [s[0]] + ReplaceAll(s[1..], pat, rep)
  }

  /** A string with no occurrence of the pattern is returned unchanged. */
  lemma {:induction false} ReplaceAllWithoutMatch(s: string, pat: string, rep: string)
    requires |pat| > 0
    requires !Occurs(s, pat)
    ensures ReplaceAll(s, pat, rep) == s
    decreases |s|
  {
    if |s| < |pat| {
    } else {
      assert !MatchesAt(s, pat, 0);
      forall i: nat | MatchesAt(s[1..], pat, i)
        ensures false
      {
        assert s[1..][i..i + |pat|] == s[i + 1..i + 1 + |pat|];
        assert MatchesAt(s, pat, i + 1);
      }
      ReplaceAllWithoutMatch(s[1..], pat, rep);
      assert [s[0]] + s[1..] == s;
    }
  }

  /** The scan copies the text before the first occurrence, writes the
      replacement in place of that occurrence, and carries on after it. */
  lemma {:induction false} ReplaceAllAtFirstMatch(a: string, pat: string, rep: string, b: string)
    requires |pat| > 0
    requires forall i: nat | i < |a| :: !MatchesAt(a + pat + b, pat, i)
    ensures ReplaceAll(a + pat + b, pat, rep) == a + rep + ReplaceAll(b, pat, rep)
    decreases |a|
  {
    var s := a + pat + b;
    if |a| == 0 {
      assert s == pat + b;
      assert s[..|pat|] == pat;
      assert s[|pat|..] == b;
    } else {
      var a' := a[1..];
      var t := a' + pat + b;
      assert s == [a[0]] + t;
      NoMatchShift(s, pat, |a'|);
      assert s[1..] == t;
      ReplaceAllAtFirstMatch(a', pat, rep, b);
      assert ReplaceAll(s, pat, rep) == [a[0]] + ReplaceAll(t, pat, rep);
      assert [a[0]] + (a' + rep + ReplaceAll(b, pat, rep)) == a + rep + ReplaceAll(b, pat, rep);
    }
  }

  /** No match among the first `n + 1` positions of `s` means none among
      the first `n` positions of `s[1..]`. */
  lemma {:induction false} NoMatchShift(s: string, pat: string, n: nat)
    requires n < |s|
    requires forall i: nat | i < n + 1 :: !MatchesAt(s, pat, i)
    ensures forall i: nat | i < n :: !MatchesAt(s[1..], pat, i)
  {
    forall i: nat | i < n
      ensures !MatchesAt(s[1..], pat, i)
    {
      assert !MatchesAt(s, pat, i + 1);
      if i + |pat| <= |s| - 1 {
        assert s[1..][i..i + |pat|] == s[i + 1..i + 1 + |pat|];
      }
    }
  }

  /** If the rewritten text starts with a word built only from characters
      absent from the replacement, the original text started with it too. */
  lemma {:induction false} ReplaceAllPrefix(t: string, pat: string, rep: string, w: string)
    requires |pat| > 0 && |rep| > 0
    requires CharsDisjoint(w, rep)
    ensures StartsWith(ReplaceAll(t, pat, rep), w) ==> StartsWith(t, w)
    decreases |t|
  {
    var r := ReplaceAll(t, pat, rep);
    if |w| == 0 {
    } else if |t| < |pat| {
    } else if MatchesAt(t, pat, 0) {
      assert r == rep + ReplaceAll(t[|pat|..], pat, rep);
      assert r[0] == rep[0] && rep[0] in rep;
      assert w[0] !in rep;
    } else {
      var r' := ReplaceAll(t[1..], pat, rep);
      assert r == [t[0]] + r';
      ReplaceAllPrefix(t[1..], pat, rep, w[1..]);
      if StartsWith(r, w) {
        assert w[0] == t[0];
        assert r'[..|w| - 1] == r[1..|w|] == w[1..];
        assert t[..|w|] == [t[0]] + t[1..][..|w| - 1];
      }
    }
  }

  /** After the rewrite no occurrence of the pattern is left, provided the
      replacement shares no character with the pattern. */
  lemma {:induction false} ReplaceAllRemovesPattern(s: string, pat: string, rep: string)
    requires |pat| > 0 && |rep| > 0
    requires CharsDisjoint(rep, pat)
    ensures !Occurs(ReplaceAll(s, pat, rep), pat)
    decreases |s|
  {
    if |s| < |pat| {
      assert ReplaceAll(s, pat, rep) == s;
    } else if MatchesAt(s, pat, 0) {
      ReplaceAllRemovesPattern(s[|pat|..], pat, rep);
      NoMatchAfterReplacement(rep, ReplaceAll(s[|pat|..], pat, rep), pat);
    } else {
      ReplaceAllRemovesPattern(s[1..], pat, rep);
      NoMatchAfterKeptChar(s, pat, rep);
    }
  }

  /** A match cannot start inside the replacement, which shares no
      character with the pattern, nor after it in a match-free rest. */
  lemma {:induction false} NoMatchAfterReplacement(rep: string, rest: string, pat: string)
    requires |pat| > 0
    requires CharsDisjoint(rep, pat)
    requires !Occurs(rest, pat)
    ensures !Occurs(rep + rest, pat)
  {
    var r := rep + rest;
    forall i: nat | i < |rep|
      ensures !MatchesAt(r, pat, i)
    {
      if i + |pat| <= |r| {
        assert r[i..i + |pat|][0] == rep[i];
      }
    }
    NoMatchAfterPrefix(rep, rest, pat);
  }

  /** If no match starts inside `pre` and `rest` has none, `pre + rest`
      has none. */
  lemma {:induction false} NoMatchAfterPrefix(pre: string, rest: string, pat: string)
    requires forall i: nat | i < |pre| :: !MatchesAt(pre + rest, pat, i)
    requires !Occurs(rest, pat)
    ensures !Occurs(pre + rest, pat)
  {
    var r := pre + rest;
    forall i: nat | |pre| <= i && MatchesAt(r, pat, i)
      ensures false
    {
      assert rest[i - |pre|..i - |pre| + |pat|] == r[i..i + |pat|];
      assert MatchesAt(rest, pat, i - |pre|);
    }
  }

  /** When `s` does not start with the pattern, its first character is kept
      and the rest is rewritten; no match can start at that character,
      since the original would then have started with the pattern. */
  lemma {:induction false} NoMatchAfterKeptChar(s: string, pat: string, rep: string)
    requires |pat| > 0 && |rep| > 0
    requires CharsDisjoint(rep, pat)
    requires |s| >= |pat| && !MatchesAt(s, pat, 0)
    requires !Occurs(ReplaceAll(s[1..], pat, rep), pat)
    ensures !Occurs(ReplaceAll(s, pat, rep), pat)
  {
    var rest := ReplaceAll(s[1..], pat, rep);
    assert ReplaceAll(s, pat, rep) == [s[0]] + rest;
    MatchAtStart(s, pat, rep, rest);
    NoMatchAfterPrefix([s[0]], rest, pat);
  }

  lemma {:induction false} MatchAtStart(s: string, pat: string, rep: string, rest: string)
    requires |pat| > 0 && |rep| > 0
    requires CharsDisjoint(rep, pat)
    requires |s| >= |pat| && !MatchesAt(s, pat, 0)
    requires rest == ReplaceAll(s[1..], pat, rep)
    ensures !MatchesAt([s[0]] + rest, pat, 0)
  {
    var r := [s[0]] + rest;
    if MatchesAt(r, pat, 0) {
      var w := pat[1..];
      forall j | 0 <= j < |w|
        ensures w[j] !in rep
      {
        assert w[j] == pat[j + 1];
      }
      assert r[..|pat|] == pat;
      assert r[1..|pat|] == w;
      assert rest[..|w|] == r[1..|pat|];
      assert s[..|pat|] == [s[0]] + s[1..][..|w|];
      ReplaceAllPrefix(s[1..], pat, rep, w);
    }
  }

  // ---- decimal text of integers (Python's `str(int)`) ----

  predicate IsDigit(c: char) {
    '0' <= c <= '9'
  }

  predicate AllDigits(s: string) {
    forall i :: 0 <= i < |s| ==> IsDigit(s[i])
  }

  function DigitChar(d: nat): (c: char)
    requires d < 10
    ensures IsDigit(c)
  {
    "0123456789"[d]
  }

  function DigitValue(c: char): (d: nat)
    requires IsDigit(c)
    ensures d < 10
  {
    (c as int - '0' as int) as nat
  }

  /** Decimal digits of `n`, most significant first, without leading zeros. */
  function NatToDecimal(n: nat): (r: string)
    ensures |r| > 0 && AllDigits(r)
    ensures |r| > 1 ==> r[0] != '0'
    decreases n
  {
    if n < 10 then [DigitChar(n)] else NatToDecimal(n / 10) + [DigitChar(n % 10)]
  }

  /** Reads a non-empty string of digits back as a number. */
  function DecimalValue(s: string): nat
    requires AllDigits(s)
    decreases |s|
  {
    if |s| == 0 then 0 else DecimalValue(s[..|s| - 1]) * 10 + DigitValue(s[|s| - 1])
  }

  lemma {:induction false} NatToDecimalRoundTrip(n: nat)
    ensures DecimalValue(NatToDecimal(n)) == n
    decreases n
  {
    var r := NatToDecimal(n);
    if n < 10 {
      assert r[..0] == "";
    } else {
      NatToDecimalRoundTrip(n / 10);
      assert r[..|r| - 1] == NatToDecimal(n / 10);
    }
  }

  /** Python's `str(i)` for an integer: an optional minus sign, then digits. */
  function IntToDecimal(i: int): string {
    if i < 0 then "-" + NatToDecimal(-i) else NatToDecimal(i)
  }

  /** Python's `int(s)` on the strings `IntToDecimal` produces; `None` for
      anything that is not an optionally signed run of digits. */
  function ParseInt(s: string): Option<int> {
    if |s| > 1 && s[0] == '-' && AllDigits(s[1..]) then Some(-(DecimalValue(s[1..]) as int))
    else if |s| > 0 && AllDigits(s) then Some(DecimalValue(s))
    else None
  }

  /** `IntToDecimal` loses nothing: parsing its text gives back the number,
      so distinct ids always get distinct decimal strings. */
  lemma {:induction false} IntToDecimalRoundTrip(i: int)
    ensures ParseInt(IntToDecimal(i)) == Some(i)
  {
    if i < 0 {
      var digits := NatToDecimal(-i);
      var s := "-" + digits;
      NatToDecimalRoundTrip(-i);
      assert s[1..] == digits;
      assert s[0] == '-' && |s| > 1;
      assert ParseInt(s) == Some(-(DecimalValue(digits) as int));
    } else {
      var s := NatToDecimal(i);
      NatToDecimalRoundTrip(i);
      assert IsDigit(s[0]);
      assert s[0] != '-';
      assert ParseInt(s) == Some(DecimalValue(s) as int);
    }
  }

  lemma {:induction false} IntToDecimalInjective(i: int, j: int)
    requires IntToDecimal(i) == IntToDecimal(j)
    ensures i == j
  {
    IntToDecimalRoundTrip(i);
    IntToDecimalRoundTrip(j);
  }
}

=== FILE: test_agent.dfy ===
/** The command-line test driver: mode selection from the arguments, then a
    read-answer loop that keeps the conversation history. Console input is
    the list of turns; what the agent answers to each query is part of the
    turn, since the agent itself is not modelled. */
module TestAgent {
  import opened Wrappers
  import opened History
  import opened Events

  const StreamMode := "stream"
  const InvokeMode := "invoke"
  const ExitCommand := "exit"
  const InvalidModeStatus := 1

  /** The mode argument (`sys.argv[1]`, if any) after validation; a failure
      carries the process exit status. */
  function ModeArgument(argv: seq<string>): (r: Result<Option<string>, int>)
    ensures r.Failure? <==> |argv| > 1 && argv[1] != StreamMode && argv[1] != InvokeMode
    ensures r.Failure? ==> r.error == InvalidModeStatus
    ensures r.Success? && |argv| <= 1 ==> r.value == None
    ensures r.Success? && |argv| > 1 ==> r.value == Some(argv[1])
  {
    var mode := if |argv| > 1 then Some(argv[1]) else None;
    if mode.Some? && mode.value != StreamMode && mode.value != InvokeMode then Failure(InvalidModeStatus)
    else Success(mode)
  }

  /** `main` replaces a missing mode by `stream`. */
  function EffectiveMode(mode: Option<string>): string {
    if mode.None? then StreamMode else mode.value
  }

  /** Every mode the command line lets through is one the loop handles. */
  lemma {:induction false} AcceptedModesAreHandled(argv: seq<string>)
    requires ModeArgument(argv).Success?
    ensures EffectiveMode(ModeArgument(argv).value) in {StreamMode, InvokeMode}
    ensures |argv| <= 1 ==> EffectiveMode(ModeArgument(argv).value) == StreamMode
  {
  }

  datatype ToolOutput = ToolOutput(name: string, output: string)

  /** The dictionary `ainvoke` returns. */
  datatype InvokeOutput = InvokeOutput(content: string, toolOutputs: seq<ToolOutput>)

  /** What the agent produces for one query: its event stream in stream
      mode, its final output in invoke mode. */
  datatype Reply = Reply(events: seq<Event>, invoked: InvokeOutput)

  /** One line typed at the prompt and the agent's reply to it. */
  datatype Turn = Turn(query: string, reply: Reply)

  /** `output_text` at the end of one turn. */
  function OutputText(mode: string, reply: Reply): string {
    if mode == StreamMode then StreamText(reply.events)
    else if mode == InvokeMode then reply.invoked.content
    else ""
  }

  /** Tool outputs reported by `ainvoke` are printed but never become part
      of the answer. */
  lemma {:induction false} ToolOutputsIgnored(events: seq<Event>, content: string, a: seq<ToolOutput>, b: seq<ToolOutput>)
    ensures OutputText(InvokeMode, Reply(events, InvokeOutput(content, a)))
         == OutputText(InvokeMode, Reply(events, InvokeOutput(content, b)))
  {
  }

  /** Index of the first `exit`, or the number of turns when there is none. */
  function TurnsBeforeExit(turns: seq<Turn>): (n: nat)
    ensures n <= |turns|
    ensures forall i :: 0 <= i < n ==> turns[i].query != ExitCommand
    ensures n < |turns| ==> turns[n].query == ExitCommand
    decreases |turns|
  {
    if |turns| == 0 then 0
    else if turns[0].query == ExitCommand then 0
    else 1 + TurnsBeforeExit(turns[1..])
  }

  /** Reference history: each turn contributes its query, then its answer. */
  function Transcript(mode: string, turns: seq<Turn>): (h: seq<Message>)
    ensures |h| == 2 * |turns|
    decreases |turns|
  {
    if |turns| == 0 then []
    else
      var t := turns[|turns| - 1];
      Transcript(mode, turns[..|turns| - 1]) + [Human(t.query), Ai(OutputText(mode, t.reply))]
  }

  lemma {:induction false} TranscriptShape(mode: string, turns: seq<Turn>)
    ensures forall i :: 0 <= i < |turns| ==>
      Transcript(mode, turns)[2 * i] == Human(turns[i].query)
      && Transcript(mode, turns)[2 * i + 1] == Ai(OutputText(mode, turns[i].reply))
    decreases |turns|
  {
    if |turns| > 0 {
      var init := turns[..|turns| - 1];
      TranscriptShape(mode, init);
      forall i | 0 <= i < |turns| - 1
        ensures Transcript(mode, turns)[2 * i] == Human(turns[i].query)
        ensures Transcript(mode, turns)[2 * i + 1] == Ai(OutputText(mode, turns[i].reply))
      {
        assert init[i] == turns[i];
      }
    }
  }

  /** The `async for` loop of stream mode: the model-stream contents are
      added to `output_text` in order; tool events are only printed. */
  method StreamOutputText(events: seq<Event>) returns (text: string)
    ensures text == StreamText(events)
  {
    text := "";
    var j := 0;
    while j < |events|
      invariant 0 <= j <= |events|
      invariant text == StreamText(events[..j])
    {
      if events[j].kind == ChatModelStream {
        text := text + events[j].content;
      }
      assert events[..j + 1][..j] == events[..j];
      j := j + 1;
    }
    assert events[..|events|] == events;
  }

  /** `main(mode)`: the history after the session. Reading `exit` ends the
      loop without touching the history; every other query appends a human
      message and then the agent's answer. */
  method RunSession(mode: Option<string>, turns: seq<Turn>) returns (history: seq<Message>)
    ensures history == Transcript(EffectiveMode(mode), turns[..TurnsBeforeExit(turns)])
    ensures Alternating(history)
    ensures |history| == 2 * TurnsBeforeExit(turns)
  {
    var m := if mode.None? then StreamMode else mode.value;
    history := [];
    var i := 0;
    while i < |turns|
      invariant 0 <= i <= |turns|
      invariant forall k :: 0 <= k < i ==> turns[k].query != ExitCommand
      invariant history == Transcript(m, turns[..i])
    {
      var t := turns[i];
      if t.query == ExitCommand {
        break;
      }
      ghost var before := history;
      history := history + [Human(t.query)];
      var text := Answer(m, t.reply);
      history := history + [Ai(text)];
      assert history == before + [Human(t.query), Ai(OutputText(m, t.reply))];
      TranscriptSnoc(m, turns, i);
      i := i + 1;
    }
    ExitIndex(turns, i);
    TranscriptAlternates(m, turns[..i]);
  }

  /** One turn's `output_text`: the streamed tokens in stream mode, the
      `content` of the `ainvoke` result in invoke mode. */
  method Answer(mode: string, reply: Reply) returns (text: string)
    ensures mode == StreamMode ==> text == StreamText(reply.events)
    ensures mode == InvokeMode ==> text == reply.invoked.content
    ensures text == OutputText(mode, reply)
  {
    text := "";
    if mode == StreamMode {
      text := StreamOutputText(reply.events);
    } else if mode == InvokeMode {
      text := reply.invoked.content;
    }
  }

  lemma {:induction false} TranscriptSnoc(mode: string, turns: seq<Turn>, i: nat)
    requires i < |turns|
    ensures Transcript(mode, turns[..i + 1])
         == Transcript(mode, turns[..i]) + [Human(turns[i].query), Ai(OutputText(mode, turns[i].reply))]
  {
    assert turns[..i + 1][..i] == turns[..i];
  }

  /** The loop stops at the first `exit`, or at the end of input. */
  lemma {:induction false} ExitIndex(turns: seq<Turn>, i: nat)
    requires i <= |turns|
    requires forall k :: 0 <= k < i ==> turns[k].query != ExitCommand
    requires i < |turns| ==> turns[i].query == ExitCommand
    ensures i == TurnsBeforeExit(turns)
  {
    var n := TurnsBeforeExit(turns);
    assert n < |turns| ==> turns[n].query == ExitCommand;
  }

  lemma {:induction false} TranscriptAlternates(mode: string, turns: seq<Turn>)
    ensures Alternating(Transcript(mode, turns))
  {
    var h := Transcript(mode, turns);
    TranscriptShape(mode, turns);
    forall i | 0 <= i < |h|
      ensures h[i].Human? <==> i % 2 == 0
    {
      var k := i / 2;
      assert k < |turns|;
      if i % 2 == 0 {
        assert i == 2 * k;
        assert h[2 * k] == Human(turns[k].query);
      } else {
        assert i == 2 * k + 1;
        assert h[2 * k + 1] == Ai(OutputText(mode, turns[k].reply));
      }
    }
  }

  /** The history after any session alternates query and answer, and the
      n-th answer is the output text of the n-th reply. */
  lemma {:induction false} SessionShape(mode: Option<string>, turns: seq<Turn>, i: nat)
    requires i < TurnsBeforeExit(turns)
    ensures
      var h := Transcript(EffectiveMode(mode), turns[..TurnsBeforeExit(turns)]);
      h[2 * i] == Human(turns[i].query)
      && h[2 * i + 1] == Ai(OutputText(EffectiveMode(mode), turns[i].reply))
  {
    var n := TurnsBeforeExit(turns);
    TranscriptShape(EffectiveMode(mode), turns[..n]);
    assert turns[..n][i] == turns[i];
  }
}

=== FILE: voicevox.dfy ===
/** The VOICEVOX speaker catalogue (`SpeakerData`) and the choice of the
    speaker id a `Voicevox` client synthesises with. The HTTP request that
    fetches `/speakers` is replaced by its decoded response. */
module Voicevox {
  import opened Wrappers
  import opened Strings
  import opened OrderedMaps

  /** One entry of a speaker's `styles` list in the `/speakers` response. */
  datatype Style = Style(name: string, id: int)

  /** One item of the `/speakers` response. */
  datatype Speaker = Speaker(name: string, styles: seq<Style>)

  /** `SpeakerData.data`: speaker name to (style name to style id). */
  type Catalogue = Assoc<string, Assoc<string, int>>

  /** Every speaker entry and every style table has distinct keys, as any
      Python dict does. */
  predicate WellFormed(data: Catalogue) {
    && UniqueKeys(data)
    && forall i :: 0 <= i < |data| ==> UniqueKeys(data[i].1)
  }

  function StylePairs(styles: seq<Style>): (ps: seq<(string, int)>)
    ensures |ps| == |styles|
    ensures forall i :: 0 <= i < |styles| ==> ps[i] == (styles[i].name, styles[i].id)
  {
    seq(|styles|, i requires 0 <= i < |styles| => (styles[i].name, styles[i].id))
  }

  /** The inner comprehension `{style["name"]: style["id"] for style in item["styles"]}`. */
  function StyleTable(sp: Speaker): Assoc<string, int> {
    FromPairs(StylePairs(sp.styles))
  }

  function SpeakerPairs(speakers: seq<Speaker>): (ps: seq<(string, Assoc<string, int>)>)
    ensures |ps| == |speakers|
    ensures forall i :: 0 <= i < |speakers| ==> ps[i] == (speakers[i].name, StyleTable(speakers[i]))
  {
    seq(|speakers|, i requires 0 <= i < |speakers| => (speakers[i].name, StyleTable(speakers[i])))
  }

  /** `SpeakerData._load_data`: speaker names in order of first appearance,
      each mapped to its table of styles. */
  function LoadData(speakers: seq<Speaker>): (data: Catalogue)
    ensures WellFormed(data)
    ensures Keys(data) == Dedup(Keys(SpeakerPairs(speakers)))
  {
    var ps := SpeakerPairs(speakers);
    FromPairsKeys(ps);
    TablesUnique(speakers);
    FromPairs(ps)
  }

  /** Each style table of the loaded catalogue is a dict comprehension, so
      its keys are distinct. */
  lemma {:induction false} TablesUnique(speakers: seq<Speaker>)
    ensures forall i :: 0 <= i < |FromPairs(SpeakerPairs(speakers))| ==>
      UniqueKeys(FromPairs(SpeakerPairs(speakers))[i].1)
  {
    var ps := SpeakerPairs(speakers);
    var data := FromPairs(ps);
    FromPairsMembers(ps);
    forall i | 0 <= i < |data|
      ensures UniqueKeys(data[i].1)
    {
      assert data[i] in ps;
      var j :| 0 <= j < |ps| && ps[j] == data[i];
      assert data[i].1 == StyleTable(speakers[j]);
    }
  }

  /** The last speaker item with a given name decides that name's styles:
      a later duplicate overwrites an earlier one. */
  lemma {:induction false} LoadDataLastWins(speakers: seq<Speaker>, j: nat)
    requires j < |speakers|
    requires forall k :: j < k < |speakers| ==> speakers[k].name != speakers[j].name
    ensures Lookup(LoadData(speakers), speakers[j].name) == Some(StyleTable(speakers[j]))
  {
    var ps := SpeakerPairs(speakers);
    FromPairsLookup(ps, speakers[j].name);
    LastValueAt(ps, j);
  }

  /** Likewise inside one speaker: the last style with a given name decides
      its id. */
  lemma {:induction false} StyleTableLastWins(sp: Speaker, k: nat)
    requires k < |sp.styles|
    requires forall m :: k < m < |sp.styles| ==> sp.styles[m].name != sp.styles[k].name
    ensures Lookup(StyleTable(sp), sp.styles[k].name) == Some(sp.styles[k].id)
  {
    var ps := StylePairs(sp.styles);
    FromPairsLookup(ps, sp.styles[k].name);
    LastValueAt(ps, k);
  }

  /** A name that no speaker item carries is absent from the catalogue. */
  lemma {:induction false} LoadDataAbsent(speakers: seq<Speaker>, name: string)
    requires forall k :: 0 <= k < |speakers| ==> speakers[k].name != name
    ensures Lookup(LoadData(speakers), name) == None
  {
    var ps := SpeakerPairs(speakers);
    FromPairsLookup(ps, name);
    LastValueIn(ps, name);
  }

  /** The style table of one speaker with every key written
      `speaker + sep + style`. */
  function Prefixed<V>(speaker: string, sep: string, styles: Assoc<string, V>): (ps: Assoc<string, V>)
    ensures |ps| == |styles|
    ensures forall j :: 0 <= j < |styles| ==> ps[j] == (speaker + sep + styles[j].0, styles[j].1)
  {
    seq(|styles|, j requires 0 <= j < |styles| => (speaker + sep + styles[j].0, styles[j].1))
  }

  lemma {:induction false} PrefixCancel(p: string, a: string, b: string)
    requires p + a == p + b
    ensures a == b
  {
    assert a == (p + a)[|p|..];
    assert b == (p + b)[|p|..];
  }

  lemma {:induction false} PrefixedUnique<V>(speaker: string, sep: string, styles: Assoc<string, V>)
    requires UniqueKeys(styles)
    ensures UniqueKeys(Prefixed(speaker, sep, styles))
  {
    var ps := Prefixed(speaker, sep, styles);
    forall i, j | 0 <= i < j < |ps|
      ensures ps[i].0 != ps[j].0
    {
      if ps[i].0 == ps[j].0 {
        assert speaker + sep + styles[i].0 == (speaker + sep) + styles[i].0;
        assert speaker + sep + styles[j].0 == (speaker + sep) + styles[j].0;
        PrefixCancel(speaker + sep, styles[i].0, styles[j].0);
      }
    }
  }

  /** `get_all_speaker_and_style_list`: one dict per speaker, in speaker
      order, keyed `speaker-style`. The comprehension reads
      `self.data[speaker][style]` while iterating that same entry, so the
      value read is the one being iterated. */
  function SpeakerStyleList(data: Catalogue): (r: seq<Assoc<string, int>>)
    ensures |r| == |data|
  {
    seq(|data|, i requires 0 <= i < |data| => FromPairs(Prefixed(data[i].0, "-", data[i].1)))
  }

  /** In a catalogue, entry `i` of the list holds exactly speaker `i`'s
      styles, in their order, each keyed `speaker-style` with its integer id. */
  lemma {:induction false} SpeakerStyleListEntry(data: Catalogue, i: nat)
    requires WellFormed(data)
    requires i < |data|
    ensures SpeakerStyleList(data)[i] == Prefixed(data[i].0, "-", data[i].1)
    ensures forall j :: 0 <= j < |data[i].1| ==>
      Lookup(SpeakerStyleList(data)[i], data[i].0 + "-" + data[i].1[j].0) == Some(data[i].1[j].1)
  {
    var ps := Prefixed(data[i].0, "-", data[i].1);
    PrefixedUnique(data[i].0, "-", data[i].1);
    FromPairsUnique(ps);
    forall j | 0 <= j < |data[i].1|
      ensures Lookup(ps, data[i].0 + "-" + data[i].1[j].0) == Some(data[i].1[j].1)
    {
      UniqueLookup(ps, j);
    }
  }

  lemma {:induction false} UniqueLookup<K, V>(d: Assoc<K, V>, j: nat)
    requires UniqueKeys(d)
    requires j < |d|
    ensures Lookup(d, d[j].0) == Some(d[j].1)
    decreases j
  {
    if j > 0 {
      UniqueLookup(d[1..], j - 1);
    }
  }

  /** In a dict with distinct keys, every stored pair is what a lookup of
      its key finds. */
  lemma {:induction false} MemberLookup<K, V>(d: Assoc<K, V>)
    ensures UniqueKeys(d) ==> forall k, v :: (k, v) in d ==> Lookup(d, k) == Some(v)
  {
    if UniqueKeys(d) {
      forall k, v | (k, v) in d
        ensures Lookup(d, k) == Some(v)
      {
        var j :| 0 <= j < |d| && d[j] == (k, v);
        UniqueLookup(d, j);
      }
    }
  }

  /** The flattened pairs `(speaker + " - " + style, str(id))`, speaker by
      speaker, style by style. */
  function DictPairs(data: Catalogue): seq<(string, string)>
    decreases |data|
  {
    if |data| == 0 then []
    else
      var last := data[|data| - 1];
      DictPairs(data[..|data| - 1]) + Prefixed(last.0, " - ", DecimalTable(last.1))
  }

  function DecimalTable(styles: Assoc<string, int>): (t: Assoc<string, string>)
    ensures |t| == |styles|
    ensures forall j :: 0 <= j < |styles| ==> t[j] == (styles[j].0, IntToDecimal(styles[j].1))
  {
    seq(|styles|, j requires 0 <= j < |styles| => (styles[j].0, IntToDecimal(styles[j].1)))
  }

  /** A pair comes from some speaker `i` and style `j` of the catalogue. */
  ghost predicate FromCatalogue(data: Catalogue, x: (string, string)) {
    exists i, j :: (0 <= i < |data| && 0 <= j < |data[i].1|
      && x == (data[i].0 + " - " + data[i].1[j].0, IntToDecimal(data[i].1[j].1)))
  }

  lemma {:induction false} DictPairsFromCatalogue(data: Catalogue)
    ensures forall x :: x in DictPairs(data) ==> FromCatalogue(data, x)
    ensures forall i, j :: 0 <= i < |data| && 0 <= j < |data[i].1| ==>
      (data[i].0 + " - " + data[i].1[j].0, IntToDecimal(data[i].1[j].1)) in DictPairs(data)
    decreases |data|
  {
    if |data| > 0 {
      var init := data[..|data| - 1];
      var last := data[|data| - 1];
      var tail := Prefixed(last.0, " - ", DecimalTable(last.1));
      DictPairsFromCatalogue(init);
      assert DictPairs(data) == DictPairs(init) + tail;
      forall x | x in DictPairs(data)
        ensures FromCatalogue(data, x)
      {
        if x in DictPairs(init) {
          var i, j :| 0 <= i < |init| && 0 <= j < |init[i].1|
            && x == (init[i].0 + " - " + init[i].1[j].0, IntToDecimal(init[i].1[j].1));
          assert init[i] == data[i];
        } else {
          var j :| 0 <= j < |tail| && tail[j] == x;
          assert x == (data[|data| - 1].0 + " - " + data[|data| - 1].1[j].0,
                       IntToDecimal(data[|data| - 1].1[j].1));
        }
      }
      forall i, j | 0 <= i < |data| && 0 <= j < |data[i].1|
        ensures (data[i].0 + " - " + data[i].1[j].0, IntToDecimal(data[i].1[j].1)) in DictPairs(data)
      {
        if i < |data| - 1 {
          assert init[i] == data[i];
        } else {
          assert tail[j] == (data[i].0 + " - " + data[i].1[j].0, IntToDecimal(data[i].1[j].1));
        }
      }
    }
  }

  /** `get_all_speaker_and_style_dict`: the choices of the speaker selector,
      choice `speaker - style` to the decimal text of the style id. */
  function SpeakerStyleDict(data: Catalogue): (r: Assoc<string, string>)
    ensures UniqueKeys(r)
  {
    FromPairs(DictPairs(data))
  }

  /** Every entry of the selector is `speaker - style` for some style of
      the catalogue, with that style's id as decimal text. */
  lemma {:induction false} SpeakerStyleDictSound(data: Catalogue, choice: string)
    requires Lookup(SpeakerStyleDict(data), choice).Some?
    ensures exists i, j :: (0 <= i < |data| && 0 <= j < |data[i].1|
      && choice == data[i].0 + " - " + data[i].1[j].0
      && Lookup(SpeakerStyleDict(data), choice).value == IntToDecimal(data[i].1[j].1))
  {
    var ps := DictPairs(data);
    FromPairsLookup(ps, choice);
    LastValueIn(ps, choice);
    DictPairsFromCatalogue(data);
    assert FromCatalogue(data, (choice, Lookup(SpeakerStyleDict(data), choice).value));
  }

  /** Every style of every speaker has an entry in the selector. */
  lemma {:induction false} SpeakerStyleDictComplete(data: Catalogue, i: nat, j: nat)
    requires i < |data| && j < |data[i].1|
    ensures Lookup(SpeakerStyleDict(data), data[i].0 + " - " + data[i].1[j].0).Some?
  {
    var ps := DictPairs(data);
    var choice := data[i].0 + " - " + data[i].1[j].0;
    DictPairsFromCatalogue(data);
    FromPairsLookup(ps, choice);
    LastValueIn(ps, choice);
    assert (choice, IntToDecimal(data[i].1[j].1)) in ps;
  }

  /** The id `Voicevox` ends up with: the `speaker_id` argument as given, or
      the integer id found in the catalogue. */
  datatype SpeakerRef = GivenId(text: string) | CatalogueId(id: int)

  datatype VoiceError = ValueError | KeyError(key: string)

  /** Python truthiness of an optional string: present and non-empty. */
  predicate Truthy(s: Option<string>) {
    s.Some? && |s.value| > 0
  }

  /** `Voicevox._get_speaker_id`; `data` is the freshly loaded catalogue. */
  function GetSpeakerId(speakerName: Option<string>, styleName: Option<string>,
                        speakerId: Option<string>, data: Catalogue): (r: Result<SpeakerRef, VoiceError>)
    ensures Truthy(speakerId) ==> r == Success(GivenId(speakerId.value))
    ensures !Truthy(speakerId) && !(Truthy(speakerName) && Truthy(styleName)) ==> r == Failure(ValueError)
    ensures r.Success? && !Truthy(speakerId) ==>
      (r.value.CatalogueId? &&
       exists styles :: (speakerName.value, styles) in data && (styleName.value, r.value.id) in styles)
    ensures r.Failure? && r.error.KeyError? ==>
      r.error.key == speakerName.value || r.error.key == styleName.value
    ensures !Truthy(speakerId) && Truthy(speakerName) && Truthy(styleName) ==>
      && (speakerName.value !in Keys(data) ==> r == Failure(KeyError(speakerName.value)))
      && (WellFormed(data) ==> forall styles :: (speakerName.value, styles) in data ==>
            && (styleName.value !in Keys(styles) ==> r == Failure(KeyError(styleName.value)))
            && (forall id :: (styleName.value, id) in styles ==> r == Success(CatalogueId(id))))
  {
    if Truthy(speakerId) then Success(GivenId(speakerId.value))
    else if Truthy(speakerName) && Truthy(styleName) then
      LookupSome(data, speakerName.value);
      MemberLookup(data);
      match Lookup(data, speakerName.value)
      case None => Failure(KeyError(speakerName.value))
      case Some(styles) =>
        MemberLookup(styles);
        LookupSome(styles, styleName.value);
        match Lookup(styles, styleName.value)
        case None => Failure(KeyError(styleName.value))
        case Some(id) => Success(CatalogueId(id))
    else Failure(ValueError)
  }

  /** A truthy `speaker_id` wins whatever names are passed alongside it. */
  lemma {:induction false} SpeakerIdTakesPrecedence(n1: Option<string>, s1: Option<string>, n2: Option<string>,
                                 s2: Option<string>, speakerId: Option<string>, data: Catalogue)
    requires Truthy(speakerId)
    ensures GetSpeakerId(n1, s1, speakerId, data) == GetSpeakerId(n2, s2, speakerId, data)
  {
  }

  /** Looking a speaker and style up by name against the catalogue loaded
      from `/speakers` yields the id of the last matching style of the last
      matching speaker item. */
  lemma {:induction false} GetSpeakerIdByName(speakers: seq<Speaker>, j: nat, k: nat)
    requires j < |speakers| && k < |speakers[j].styles|
    requires forall m :: j < m < |speakers| ==> speakers[m].name != speakers[j].name
    requires forall m :: k < m < |speakers[j].styles| ==> speakers[j].styles[m].name != speakers[j].styles[k].name
    requires |speakers[j].name| > 0 && |speakers[j].styles[k].name| > 0
    ensures GetSpeakerId(Some(speakers[j].name), Some(speakers[j].styles[k].name), None, LoadData(speakers))
         == Success(CatalogueId(speakers[j].styles[k].id))
  {
    LoadDataLastWins(speakers, j);
    StyleTableLastWins(speakers[j], k);
  }
}

=== FILE: wrappers.dfy ===
/** Optional values and results used throughout the model: Python's
    `None` and raised exceptions become explicit values. */
module Wrappers {

  datatype Option<+T> = None | Some(value: T)

  datatype Result<+R, +E> = Success(value: R) | Failure(error: E)
}
